=== FILE: README.md ===
# JGraphicEngine object model in Dafny

This project models the runtime object model of JGraphicEngine, a C++ OpenGL engine. It leaves out the rendering and covers the bookkeeping that the engine does over maps, vectors and pointer links:

- **Object identity** (`CoreObject`): the global `s_NextID` counter that every `JCoreObject` constructor pre-increments, and the per-class type name from the declaration macro.
- **Resource cache** (`Resources`):
  - `JResourceManager`, a get-or-create cache over a key map and an id map;
  - `JModelResource`, whose serialisation carries path metadata only.
- **Actors** (`Actors`): `JActor` field defaults and constructors, and `FActorConfig` with its serialisation.
- **Scene registry** (`Scenes`): `JScene`. Actors are kept in dense storage with an id index. Removal swaps with the last slot and pops, and the moved actor's `m_VectorIndex` is updated. The type queries are linear.
- **Scene manager** (`SceneManagement`): `SceneManager`. It delegates to the active scene, fires the editor callbacks in order, saves and loads scene files, renames scenes and reads a scene file's metadata.
- **Component chain** (`Components`): `JComponent` → `JTransformComponent` → `JSceneComponent` → `JModelComponent`. This covers:
  - the owner links and the attachment hooks;
  - the parent/children links;
  - the world transform as a fold over the ancestors;
  - the serialised record, and reading it back;
  - the model component's weak link to a cached model resource.
- **Serialisation layer** (`Json`): a JSON value as nlohmann::json holds it. Alongside it:
  - typed conversions that throw `type_error` on a wrong type;
  - `JsonReader::Read` with its default;
  - `JsonWriter`, which assigns keys into the object it owns.
- **Service registry** (`Services`): `TServiceContainer`, one instance per type key.
- **Path helpers** (`PathFinder`):
  - `UPathFinder`'s filename, stem, extension and parent decomposition, as section [fs.path.decompose] of ISO/IEC 14882:2017 describes it;
  - the `ListFiles` / `ListDirectories` filters over the entries a directory iterator yields.

How the C++ is modelled:

- Objects the source updates in place are Dafny classes:
  - `ObjectIdCounter`, `Resource`, `ResourceManager`, `Actor`, `Scene`, `SceneManager`, `SceneComponent`, `JsonWriter` and `ServiceContainer`.
  - Their methods carry `modifies` clauses.
  - Their invariants are `Valid()` predicates. Examples: "the id index is exactly the identity over storage", and "`c in p.children <==> c.parent == p`".
- Values are datatypes: JSON, configs, records, paths and directory listings.
- Editor callbacks are appended to an event log (`events`, `notifications`), in the order the source fires them.

The source disagrees with itself in a few places. The code is followed, as described here:

- **Actor id.** The actor id is written as `id` (`JScene.h:94`) and read as `ID` (`JScene.cpp:29`, `:61`). It is one field, `Actor.id`, which the scene assigns.
- **Scene manager shape.** `SceneManager.h` declares a name→scene map and a raw active pointer. `SceneManager.cpp` owns one active scene. The model has one owned active scene, plus the header's spawn and find delegations.
- **Removal callback.** `OnActorRemoved` receives a pointer that `pop_back` has already destroyed. It is modelled by the removed id.
- **Dirty flag.** `m_bIsDirty` starts `true` and nothing shown writes it. No operation of the model changes it.
- **`GetOwner`.** It reads a field named `Owner` that `JComponent` does not declare (`m_Owner` is the field). It is modelled as returning `m_Owner`.
- **`Detach` and `AttachToComponent`.** `Detach` never returns when the component has a parent and its owner has a root component. The model has both as-written methods and corrected ones; see Findings.

## Model

| member | source | states |
|---|---|---|
| Text.NatToString | Source/Engine/Private/Scene/Components/JSceneComponent.cpp:67 | std::to_string of a count is a non-empty string of decimal digits |
| Text.NatToStringInjective | Source/Engine/Private/Scene/Components/JSceneComponent.cpp:67 | different numbers give different strings, so "child_" keys never collide |
| Text.LowerChar | Source/Engine/Private/Utilities/UPathFinder.cpp:29 | std::tolower in the "C" locale moves 'A'..'Z' to 'a'..'z' and leaves every other character alone |
| Text.ToLower | Source/Engine/Private/Utilities/UPathFinder.cpp:27-31 | the lowercased copy has the same length, and each character is the lowercase of the original |
| Json.AsBool | Source/Engine/Public/Core/Serialization/JsonReader.h:26 | get<bool> succeeds exactly on a JSON boolean and gives its value; anything else is a type_error |
| Json.AsInt | Source/Engine/Public/Core/Serialization/JsonReader.h:26 | get<int> succeeds exactly on an integer, a float or a boolean: an integer is itself, a float truncates toward zero (TruncateToward0 keeps it within 1 of the float, on the zero side), a boolean is 1 or 0 |
| Json.AsReal | Source/Engine/Public/Core/Serialization/JsonReader.h:26 | get<float> succeeds exactly on a float, an integer or a boolean; a float is itself and an integer its value |
| Json.AsString | Source/Engine/Public/Core/Serialization/JsonReader.h:26 | get<std::string> succeeds exactly on a JSON string and gives its text |
| Json.AsVec3 | Source/Engine/Public/Core/Serialization/JsonReader.h:26 | a vector reads back exactly from a three-element array whose items all read as floats, as x, y and z in that order |
| Json.EncodeBool | Source/Engine/Public/Core/Serialization/JsonWriter.h:24-28 | a written bool reads back with get<bool> |
| Json.EncodeInt | Source/Engine/Public/Core/Serialization/JsonWriter.h:24-28 | a written integer reads back with get<int> |
| Json.EncodeReal | Source/Engine/Public/Core/Serialization/JsonWriter.h:24-28 | a written float reads back with get<float> |
| Json.EncodeString | Source/Engine/Public/Core/Serialization/JsonWriter.h:24-28 | a written string reads back with get<std::string> |
| Json.EncodeVec3 | Source/Engine/Private/Core/Serialization/JsonWriter.cpp:12-15 | a vector is stored as the three-element array [x, y, z] in that order, and reads back as the same vector |
| Json.ValueOr | Source/Engine/Private/Framework/SceneManager.cpp:107-110 | json::value on a non-object throws; on an object it is Read with its default |
| Json.ReadPresentOrDefault | Source/Engine/Public/Core/Serialization/JsonReader.h:24-28 | Read (modelled by Json.ReadAs) returns the converted stored value when the key is present, and the default when it is absent; the default argument T() is "" for strings |
| Json.ReadAfterWrite | Source/Engine/Public/Core/Serialization/JsonWriter.h:27 | after Write(k, v), Read(k, d) returns v, whatever d is |
| Json.WriteLeavesOtherKeys | Source/Engine/Public/Core/Serialization/JsonWriter.h:27 | writing one key does not change what any other key reads |
| Json.JsonWriter.constructor | Source/Engine/Public/Core/Serialization/JsonWriter.h:18 | a new writer holds null |
| Json.JsonWriter.BeginObject | Source/Engine/Private/Core/Serialization/JsonWriter.cpp:7-10 | the data becomes the empty object, whatever was written before |
| Json.JsonWriter.Write | Source/Engine/Public/Core/Serialization/JsonWriter.h:24-28 | the key is set to the value and overwrites any earlier value; every other key keeps its value |
| Json.JsonWriter.WriteVec3 | Source/Engine/Private/Core/Serialization/JsonWriter.cpp:12-15 | the key holds [x, y, z], which reads back as the vector; the other keys are kept |
| CoreObject.TypeNameIdentifiesClass | Source/Engine/Public/Core/JCoreObject.h:8-12 | StaticTypeName and GetClassTypeName return the one stringised class name, and different classes report different names |
| CoreObject.IssuedIdAt | Source/Engine/Public/Core/JCoreObject.h:30-31 | the k-th construction receives id k+1 |
| CoreObject.IssuedIdsStrictlyIncrease | Source/Engine/Public/Core/JCoreObject.h:30-35 | ids lie in 1..n and strictly increase in construction order, so none is reused |
| CoreObject.ObjectIdCounter.constructor | Source/Engine/Public/Core/JCoreObject.h:35 | the counter starts at 0 and nothing has been issued |
| CoreObject.ObjectIdCounter.NewId | Source/Engine/Public/Core/JCoreObject.h:30-31 | pre-increment: the new id is the last one plus 1 and exceeds every id issued before; the invariant "issued ids = 1..lastId" is kept |
| Resources.Metadata | Source/Engine/Private/Resources/JModelResource.cpp:24-30 | the metadata has exactly the keys Type, ID and Path, and they read back as the type name, the id and the path |
| Resources.MetadataPathRoundTrip | Source/Engine/Private/Resources/JModelResource.cpp:24-37 | reading Path from serialised metadata gives the path that was written, over any earlier keys |
| Resources.Resource.constructor | Source/Engine/Private/Resources/JModelResource.cpp:8-12 | the path is recorded and the model is loaded from it |
| Resources.Resource.Serialize | Source/Engine/Private/Resources/JModelResource.cpp:24-30 | exactly Type, ID and Path are added to the writer, with no model data |
| Resources.Resource.Deserialize | Source/Engine/Private/Resources/JModelResource.cpp:32-37 | Path is read with default ""; the model is reloaded exactly when that path is non-empty; the id is never touched; a Path that is not a string throws and changes nothing |
| Resources.ResourceManager.constructor | Source/Engine/Private/Resources/JResourceManager.h:93-94 | both maps start empty |
| Resources.ResourceManager.Load | Source/Engine/Private/Resources/JResourceManager.h:37-55 | a cached key gives the cached instance, or null when it is not a T, and changes nothing; a miss constructs exactly one instance from the argument, with the next id, registered under the key and under that id; ResourceManager.Has(key) (JResourceManager.h:76, key-map membership) holds afterwards; the two maps stay in agreement |
| Resources.ResourceManager.Get | Source/Engine/Private/Resources/JResourceManager.cpp:6-12 | the stored instance, or empty exactly when the key is absent |
| Resources.ResourceManager.GetByID | Source/Engine/Private/Resources/JResourceManager.cpp:14-20 | the stored instance, or empty exactly when the id is absent |
| Resources.ResourceManager.Unload | Source/Engine/Private/Resources/JResourceManager.cpp:27-37 | a missing key gives false and changes nothing; otherwise the key and its object's id are removed, true is returned, and every other key still resolves to its instance |
| Resources.ResourceManager.UnloadAll | Source/Engine/Private/Resources/JResourceManager.cpp:39-43 | both maps end empty |
| Resources.ResourceManager.KeyAndIdAgree | Source/Engine/Private/Resources/JResourceManager.h:51-52 | every instance reached by key is the one its id reaches |
| Resources.LoadTwice | Source/Engine/Private/Resources/JResourceManager.h:42-45 | two Loads of one key return the identical instance, whatever the second argument |
| Resources.ReloadAfterUnload | Source/Engine/Private/Resources/JResourceManager.cpp:33-35 | after Unload(k), Load(k, arg) takes the miss path and builds a fresh instance from arg |
| Actors.ConfigFields | Source/Engine/Public/Scene/JActor.h:21-25 | the config's keys are exactly draw_outline, back_culling and outline_thickness, each holding its field |
| Actors.SerializeConfig | Source/Engine/Public/Scene/JActor.h:21-25 | the writer gains the three config keys and keeps what it held |
| Actors.DeserializeConfig | Source/Engine/Public/Scene/JActor.h:27-31 | it throws exactly when one of the three reads throws; otherwise each field is its read with fallbacks false, false and 0.05 |
| Actors.DeserializeEmptyIsDefault | Source/Engine/Public/Scene/JActor.h:17-31 | the fallbacks equal the field initialisers, so an empty object gives the default config |
| Actors.ConfigRoundTrip | Source/Engine/Public/Scene/JActor.h:21-31 | deserialising what Serialize wrote reproduces the config, over any earlier keys and any previous config |
| Actors.Actor.Default | Source/Engine/Public/Scene/JActor.h:40-54 | position 0, rotation 0, scale 1, no model, vector index 0 and the default config |
| Actors.Actor.constructor | Source/Engine/Public/Scene/JActor.h:55-59 | model, name, position, rotation and scale are stored as given; the rest is as by default |
| Actors.Actor.Named | Source/Engine/Public/Scene/JActor.h:55-59 | with the transform arguments omitted they default to 0, 0 and 1 |
| Scenes.SwapRemove | Source/Engine/Private/Scene/JScene.cpp:41-47 | swap-with-last and pop_back: one slot shorter, the last element fills slot i, every other slot is unchanged |
| Scenes.SwapRemoveKeeps | Source/Engine/Private/Scene/JScene.cpp:41-47 | every element other than the removed one is still stored |
| Scenes.SwapRemoveMultiset | Source/Engine/Private/Scene/JScene.cpp:41-47 | swap-removal loses exactly the removed element; only the order changes |
| Scenes.OfTypeMembers | Source/Engine/Public/Scene/JScene.h:178-184 | an actor is collected exactly when it is stored and is of the type |
| Scenes.OfTypeStartsWithFirstMatch | Source/Engine/Public/Scene/JScene.h:160-165 | the collection starts with the first stored actor of the type |
| Scenes.NoneOfType | Source/Engine/Public/Scene/JScene.h:160-165 | no stored actor of the type means an empty collection |
| Scenes.Scene.constructor | Source/Engine/Private/Scene/JScene.cpp:6-9 | the given name, no actors, an empty index, next id 1 and dirty |
| Scenes.Scene.StoredActorsAreIndexed | Source/Engine/Private/Scene/JScene.cpp:58-62 | under the invariant, each stored actor's id resolves to it, and slots hold distinct actors with distinct ids |
| Scenes.Scene.FindActorByID | Source/Engine/Private/Scene/JScene.cpp:20-24 | the indexed actor, or null exactly when the id is absent; nothing changes |
| Scenes.Scene.FoundActorIsStored | Source/Engine/Private/Scene/JScene.cpp:20-24 | a found actor is stored in the slot it records and carries the id asked for |
| Scenes.Scene.FindActorByIDAsWritten | Source/Engine/Public/Scene/JScene.h:139-148 | null exactly when the id is absent, otherwise the indexed actor whatever its type |
| Scenes.Scene.FindActorByIDOfType | Source/Engine/Public/Scene/JScene.h:133-138 | non-null exactly when the id is indexed and its actor is of the type |
| Scenes.Scene.TypedLookupIgnoresType | Source/Engine/Public/Scene/JScene.h:137-147 | an indexed actor of another type comes back from the as-written lookup, where the documented lookup gives null |
| Scenes.Scene.FindActorOfType | Source/Engine/Public/Scene/JScene.h:155-166 | the first actor of the type in storage order, or null when none is; it is the head of FindActorsOfType's result |
| Scenes.Scene.FindActorsOfType | Source/Engine/Public/Scene/JScene.h:173-185 | every actor of the type, in storage order, and nothing else |
| Scenes.Scene.AddActorToList | Source/Engine/Private/Scene/JScene.cpp:58-66 | the actor is appended at index old size, records that index and is indexed by its id; OnActorAdded fires after the insertion; the invariant is kept |
| Scenes.Scene.SpawnActor | Source/Engine/Public/Scene/JScene.h:87-99 | the new actor gets the current next id, then the counter advances by 1; the actor is found by its id; one OnActorAdded |
| Scenes.Scene.RemoveActorById | Source/Engine/Private/Scene/JScene.cpp:32-56 | an absent id gives false and changes nothing; otherwise the storage is swap-removed at the actor's slot, the moved actor records its new slot, the id is unindexed while every other id resolves as before, and OnActorRemoved fires afterwards; every actor still held keeps every field except its slot; the invariant is kept |
| Scenes.Scene.SwapOutSlot | Source/Engine/Private/Scene/JScene.cpp:42-47 | the storage becomes the swap-removal at the slot; every actor left records its own slot; its frame lets it write only the storage and m_VectorIndex |
| Scenes.Scene.Unindex | Source/Engine/Private/Scene/JScene.cpp:49-53 | after the swap, the id is erased from the index and OnActorRemoved is logged, and storage and index agree again |
| Scenes.Scene.RemoveActor | Source/Engine/Private/Scene/JScene.cpp:26-30 | null gives false and changes nothing; otherwise it is removal by the id of the actor it points to; every actor held before keeps every field except its slot |
| Scenes.Scene.UpdateActors | Source/Engine/Private/Scene/JScene.cpp:11-18 | the loop body is commented out, so no scene or actor changes, empty or not |
| Scenes.Scene.SetName | Source/Engine/Private/Scene/JScene.h:47 | only the name changes |
| SceneManagement.StampMeta | Source/Engine/Private/Framework/SceneManager.cpp:79-81 | j["meta"]["last_modified"] = timestamp succeeds exactly on null or on an object whose meta is absent, null or an object; the stamp reads back and every other top-level key is kept |
| SceneManagement.ReadSceneMetaAsWritten | Source/Engine/Private/Framework/SceneManager.cpp:98-112 | a file that cannot be opened gives the initial record; a file whose object lacks "meta" throws |
| SceneManagement.MetaEntry | Source/Engine/Private/Framework/SceneManager.cpp:109-110 | a missing or null "meta" is read as the empty object |
| SceneManagement.ReadSceneMeta | Source/Engine/Private/Framework/SceneManager.cpp:98-112 | corrected reading of Findings row 2. A missing file and an empty object give the defaults Unnamed, 0, "" and "". On an object it succeeds exactly when each of the four defaulted reads does. Each key defaults on its own: a present name or actor_count supplies its converted value and an absent one gives "Unnamed" or 0; last_modified and thumbnail come from the "meta" object, "" when absent |
| SceneManagement.MetaMissingThrowsAsWritten | Source/Engine/Private/Framework/SceneManager.cpp:109-110 | {"name": "Lake"} throws as written, and reads as (Lake, 0, "", "") when corrected |
| SceneManagement.ReadSceneMetaAgreesWhenMetaPresent | Source/Engine/Private/Framework/SceneManager.cpp:107-111 | the two readings agree on every file with a "meta" object |
| SceneManagement.SavedFileReadsTimestamp | Source/Engine/Private/Framework/SceneManager.cpp:76-83 | when the other metadata reads of the stamped document succeed, a file SaveScene wrote reads back with the timestamp it was stamped with |
| SceneManagement.SceneManager.constructor | Source/Engine/Public/Framework/SceneManager.h:21 | no active scene (SceneManager.GetActiveScene, SceneManager.h:41, returns null) and no notifications |
| SceneManagement.SceneManager.ScenePath | Source/Engine/Private/Framework/SceneManager.cpp:73 | the file is ENGINE_DIRECTORY + "/Assets/Scenes/" + filename + ".jscene" |
| SceneManagement.SceneManager.SpawnActor | Source/Engine/Public/Framework/SceneManager.h:52-59 | with no active scene, null and no callback; otherwise the scene's spawn with its whole effect: the new actor takes the scene's next id, which advances by 1; it is appended to storage and indexed under that id; it holds the given class, model, name and transform and the default config; the scene logs ActorAdded and keeps its name and dirty flag. Exactly one OnActorAdded with that new actor follows |
| SceneManagement.SceneManager.FindActorByID | Source/Engine/Private/Framework/SceneManager.cpp:10-14 | null with no active scene, otherwise the active scene's lookup |
| SceneManagement.SceneManager.FindActorByIDAsWritten | Source/Engine/Public/Framework/SceneManager.h:74-79 | as written, through the scene's unchecked lookup: non-null exactly when there is an active scene that indexes the id, whatever the type, and always the untyped FindActorByID's answer |
| SceneManagement.SceneManager.FindActorByIDOfType | Source/Engine/Public/Framework/SceneManager.h:74-79 | corrected lookup of Findings row 1: non-null exactly when there is an active scene whose index holds the id with an actor of the type |
| SceneManagement.SceneManager.TypedLookupIgnoresType | Source/Engine/Public/Framework/SceneManager.h:74-79 | an indexed actor of another type comes back from the manager's lookup as written, where the corrected lookup gives null |
| SceneManagement.SceneManager.FindActorOfType | Source/Engine/Public/Framework/SceneManager.h:86-91 | null with no active scene, otherwise the active scene's first match |
| SceneManagement.SceneManager.FindActorsOfType | Source/Engine/Public/Framework/SceneManager.h:98-103 | empty with no active scene, otherwise all the active scene's matches in storage order |
| SceneManagement.SceneManager.RemoveActor | Source/Engine/Private/Framework/SceneManager.cpp:16-25 | no scene or a null pointer gives false and no callback. Otherwise OnActorRemoving fires first, then the removal, then OnActorRemoved with the captured id only on success. A successful removal swap-removes the actor's slot from storage, unindexes the id and logs ActorRemoved in the scene; a failed one leaves storage, index and log unchanged. The scene's name, counter and dirty flag never change, and every actor it held keeps every field except its slot |
| SceneManagement.SceneManager.RemoveActorById | Source/Engine/Private/Framework/SceneManager.cpp:27-33 | true exactly when there is a scene and the id is found. Then Removing(actor) and Removed(id) fire in that order, the actor's slot is swap-removed from storage, the id is unindexed, and the scene logs ActorRemoved. Otherwise the scene's storage, index and log are unchanged. The scene's name, counter and dirty flag never change, and every actor it held keeps every field except its slot |
| SceneManagement.SceneManager.Update | Source/Engine/Private/Framework/SceneManager.cpp:35-39 | the active scene's UpdateActors, if any; nothing changes |
| SceneManagement.SceneManager.SaveScene | Source/Engine/Private/Framework/SceneManager.cpp:68-86 | null gives false; a clean scene gives true without writing or a callback; an unopenable file gives false; otherwise the file holds the serialised scene stamped with meta.last_modified and OnSceneSaved fires |
| SceneManagement.SceneManager.CreateSceneFile | Source/Engine/Private/Framework/SceneManager.cpp:41-48 | an existing file without overwrite gives false and changes nothing. Otherwise a fresh scene of the name is saved: an unwritable file gives false with no file or callback change; a stamp that throws reports the error, leaves the file truncated and fires nothing; a successful stamp writes the file, returns true and appends one Saved callback for a scene of that name |
| SceneManagement.SceneManager.LoadScene | Source/Engine/Private/Framework/SceneManager.cpp:50-66 | an unopenable file gives null and changes nothing; an unparsable one reports the parse error and fires no callback; otherwise the scene is named from "name" (default UnnamedScene), OnSceneLoaded fires, and the scene becomes the active one, which SceneManager.GetActiveScene returns |
| SceneManagement.SceneManager.RenameScene | Source/Engine/Private/Framework/SceneManager.cpp:88-96 | true exactly for a non-null scene, a non-empty name and a changed name; then the name is set and OnSceneRenamed fires; otherwise neither the name nor the callbacks change. The scene's actors, index, counter, dirty flag and event log never change |
| Components.Without | Source/Engine/Private/Scene/Components/JSceneComponent.cpp:23 | erase-remove: no occurrence is left, every other element is kept, and nothing is added |
| Components.WithoutDistributes | Source/Engine/Private/Scene/Components/JSceneComponent.cpp:23 | the remaining siblings keep their order |
| Components.WithoutNoDuplicates | Source/Engine/Private/Scene/Components/JSceneComponent.cpp:20-24 | erasing keeps a children list free of duplicates |
| Components.SceneComponent.constructor | Source/Engine/Public/Scene/Components/SceneComponents/JSceneComponent.h:23-27 | no owner, transform 0/0/1, null parent and no children |
| Components.SceneComponent.GetParent | Source/Engine/Public/Scene/Components/SceneComponents/JSceneComponent.h:43-46 | null exactly for a hierarchy root |
| Components.SceneComponent.SetOwner | Source/Engine/Public/Scene/Components/JComponent.h:52 | the owner becomes the given actor, which SceneComponent.GetOwner (JComponent.h:55) then returns; nothing else changes |
| Components.SceneComponent.SetOwnerActor | Source/Engine/Public/Scene/Components/SceneComponents/JSceneComponent.h:55-58 | after SetOwnerActor(a), SceneComponent.GetOwnerActor (JSceneComponent.h:58) is a |
| Components.SceneComponent.Initialize | Source/Engine/Private/Scene/Components/JComponent.cpp:5-7 | the default hook has no effect besides its call |
| Components.SceneComponent.OnAttachment | Source/Engine/Private/Scene/Components/JSceneComponent.cpp:44-54 | Initialize is called exactly once, then, with an owner, the component is handed to the owner's graph |
| Components.SceneComponent.Tick | Source/Engine/Private/Scene/Components/JComponent.cpp:31-33 | nothing changes, for any delta |
| Components.SceneComponent.Unlink | Source/Engine/Private/Scene/Components/JSceneComponent.cpp:20-24 | the component leaves its parent's children, the others keeping their order, and becomes a root; the links stay consistent |
| Components.SceneComponent.Link | Source/Engine/Private/Scene/Components/JSceneComponent.cpp:13-15 | a root takes p as parent and is appended to the end of p's children; the links stay consistent |
| Components.SceneComponent.AttachToComponent | Source/Engine/Private/Scene/Components/JSceneComponent.cpp:8-16 | corrected member of Findings row 3: after leaving its old parent, the parent is p and the component ends p's children, so it is in exactly one children list; with null it is a root; the links stay consistent |
| Components.SceneComponent.Detach | Source/Engine/Private/Scene/Components/JSceneComponent.cpp:18-35 | the component leaves its parent, then joins the owner's root if there is one and otherwise stays a root; the links stay consistent |
| Components.SceneComponent.AttachToComponentAsWritten | Source/Engine/Private/Scene/Components/JSceneComponent.cpp:8-16 | with a parent and an owner root, the nested Detach never returns |
| Components.SceneComponent.DetachAsWritten | Source/Engine/Private/Scene/Components/JSceneComponent.cpp:18-35 | with a parent and an owner root it never returns, whatever the fuel |
| Components.SceneComponent.Serialize | Source/Engine/Private/Scene/Components/JComponent.cpp:14-23 | the writer holds exactly the laid-out record of the component, or the recursion does not finish (a cycle of children) |
| Components.SceneComponent.WriteRecord | Source/Engine/Private/Scene/Components/JSceneComponent.cpp:56-72 | the own fields, the children's records and the link fields form the component's record |
| Components.SceneComponent.WriteChildren | Source/Engine/Private/Scene/Components/JSceneComponent.cpp:63-68 | child_i holds the i-th child's record for every child, on top of what was written; false as soon as one child does not finish |
| Components.SceneComponent.WriteChild | Source/Engine/Private/Scene/Components/JSceneComponent.cpp:65-67 | one child is serialised into a fresh writer and stored under child_i |
| Components.SceneComponent.WriteOwnFields | Source/Engine/Private/Scene/Components/JTransformComponent.cpp:21-28 | a fresh object with type, id, the transform object and children_count |
| Components.SceneComponent.WriteLinkFields | Source/Engine/Private/Scene/Components/JSceneComponent.cpp:70-71 | parent_id (0 for a root), then model_path for a model component, on top of what was written |
| Components.SceneComponent.Deserialize | Source/Engine/Private/Scene/Components/SceneComponents/JModelComponent.cpp:45-56 | the transform and model path are read as the property chain reads them, and the id is untouched; a model component with a non-empty path loads it through the cache and binds the result: a cached key binds the cached instance (null when it is not a model resource) and leaves the cache unchanged; a miss binds a fresh JModelResource for that path holding the loaded model, registered under the key and under its new id |
| Components.SceneComponent.SetModel | Source/Engine/Private/Scene/Components/SceneComponents/JModelComponent.cpp:10-15 | the path is recorded and loaded with the path as both key and constructor argument; a cached key binds the cached instance |
| Components.SceneComponent.GetModel | Source/Engine/Public/Scene/Components/SceneComponents/JModelComponent.h:53 | locking the weak reference yields the resource only while a shared owner still holds it |
| Components.SceneComponent.Draw | Source/Engine/Private/Scene/Components/SceneComponents/JModelComponent.cpp:17-35 | it draws with the world transform exactly when the resource is alive and its Resource.GetModel (JModelResource.h:34) holds a model; otherwise nothing happens |
| Components.AncestorChain | Source/Engine/Private/Scene/Components/JSceneComponent.cpp:37-42 | the ancestors, root first and the component last, each the parent of the next |
| Components.WorldTransformIsFold | Source/Engine/Private/Scene/Components/JSceneComponent.cpp:37-42 | the world transform (Components.WorldTransform, JSceneComponent.cpp:37-42) is the left fold of the local transforms from the root down, each being SceneComponent.LocalTransform (GetLocalTransform, JTransformComponent.cpp:12-19, position, rotation and scale), and exists exactly when the ancestor chain is finite |
| Components.CycleHasNoWorldTransform | Source/Engine/Private/Scene/Components/JSceneComponent.cpp:37-42 | on a cycle of parents, which attaching does not prevent, the recursion never yields a transform |
| Components.TransformObject | Source/Engine/Private/Scene/Components/JTransformComponent.cpp:21-28 | the transform object has exactly position, rotation and scale, each reading back as its vector |
| Components.ChildKey | Source/Engine/Private/Scene/Components/JSceneComponent.cpp:67 | the key is "child_" followed by the index's decimal string |
| Components.ChildKeyInjective | Source/Engine/Private/Scene/Components/JSceneComponent.cpp:67 | different children get different keys |
| Components.ChildKeyIsNotFixed | Source/Engine/Private/Scene/Components/JSceneComponent.cpp:67 | a child key never collides with type, id, transform, children_count, parent_id or model_path |
| Components.ChildFailureFailsAll | Source/Engine/Private/Scene/Components/JSceneComponent.cpp:63-68 | a child whose serialisation does not finish makes the parent's not finish |
| Components.RecordOfComponent | Source/Engine/Private/Scene/Components/JSceneComponent.cpp:56-72 | a component's record holds its class, id, transform, parent id (0 for a root) and model path, and the records of exactly its children in order |
| Components.ChildMapAt | Source/Engine/Private/Scene/Components/JSceneComponent.cpp:63-68 | the child keys are child_0..child_(n-1), and child_i holds the i-th record |
| Components.ToJsonShape | Source/Engine/Private/Scene/Components/JSceneComponent.cpp:56-72 | the keys are exactly type, id, transform, children_count, parent_id, the child keys, and model_path for model components; children_count is the number of children and each key reads back as its field |
| Components.CycleHasNoRecord | Source/Engine/Private/Scene/Components/JSceneComponent.cpp:63-68 | on a cycle of children the serialisation never finishes |
| Components.DeserializeTransform | Source/Engine/Private/Scene/Components/JTransformComponent.cpp:30-36 | position, rotation and scale come from the transform object with defaults 0, 0 and 1; it throws exactly when one of the reads throws, and the fields from that read on stay as they were |
| Components.DeserializeTransformDefaults | Source/Engine/Private/Scene/Components/JTransformComponent.cpp:30-36 | without a transform object, the transform becomes 0/0/1 |
| Components.TransformRoundTrip | Source/Engine/Private/Scene/Components/JTransformComponent.cpp:21-36 | reading back the written transform object restores position, rotation and scale |
| Components.ReadProperties | Source/Engine/Private/Scene/Components/JSceneComponent.cpp:74-93 | the transform as read; the hierarchy keys are read as ints and ignored; only a model component reads model_path, with default ""; the first throw is reported |
| Components.RecordRoundTrip | Source/Engine/Private/Scene/Components/JSceneComponent.cpp:56-93 | deserialising a serialised record restores the transform and, for a model component, the model path, without throwing; no hierarchy is restored |
| Components.ComponentRoundTrip | Source/Engine/Private/Scene/Components/JComponent.cpp:14-29 | deserialising what a component's Serialize wrote restores its own transform and model path |
| Components.SetModelTwice | Source/Engine/Private/Scene/Components/SceneComponents/JModelComponent.cpp:14 | SetModel twice with the same path binds the same cached instance |
| Components.UnloadExpiresModel | Source/Engine/Public/Scene/Components/SceneComponents/JModelComponent.h:53 | once the cache, the only holder, unloads the model's key, GetModel gives null |
| Services.Service.constructor | Source/Engine/Private/Core/TServiceContainer.h:19 | make_shared<T>(args...) records its type and its arguments |
| Services.ServiceContainer.constructor | Source/Engine/Private/Core/TServiceContainer.h:14 | no service is registered |
| Services.ServiceContainer.RegisterService | Source/Engine/Private/Core/TServiceContainer.h:16-20 | a new T built from the arguments replaces the type's entry; every other type keeps its entry; exactly one construction |
| Services.ServiceContainer.GetService | Source/Engine/Private/Core/TServiceContainer.h:22-29 | null exactly when no T is registered, otherwise the registered instance, which is a T |
| Services.ServiceContainer.GetOrCreateService | Source/Engine/Private/Core/TServiceContainer.h:31-41 | a registered T is returned with nothing built or changed; otherwise exactly one T is registered and returned |
| Services.RegisterThenGet | Source/Engine/Private/Core/TServiceContainer.h:16-29 | right after registering, GetService returns the new instance, and another type's answer is unchanged |
| Services.GetOrCreateTwice | Source/Engine/Private/Core/TServiceContainer.h:31-41 | two calls return the same instance and build at most one |
| PathFinder.FileName | Source/Engine/Private/Utilities/UPathFinder.cpp:89-93 | filename() is the separator-free suffix after the last separator |
| PathFinder.Extension | Source/Engine/Private/Utilities/UPathFinder.cpp:95-100 | extension() is empty exactly when the filename has no extension ("." and ".." have none, nor a dot-file like ".profile"); otherwise it starts with its only period |
| PathFinder.Stem | Source/Engine/Private/Utilities/UPathFinder.cpp:89-93 | stem + extension == filename |
| PathFinder.GetFileName | Source/Engine/Private/Utilities/UPathFinder.cpp:89-93 | with the extension it is the filename; without it, it is the stem, which with the extension makes up the filename |
| PathFinder.GetExtension | Source/Engine/Private/Utilities/UPathFinder.cpp:95-100 | the extension with its leading period removed, or "" when there is none |
| PathFinder.ParentPath | Source/Engine/Private/Utilities/UPathFinder.cpp:84-87 | a path without a relative part is its own parent; otherwise the parent is a proper prefix without the filename and the separators before it |
| PathFinder.JoinDecomposes | Source/Engine/Private/Utilities/UPathFinder.cpp:84-93 | dir + "/" + name has filename name and parent dir |
| PathFinder.Walk | Source/Engine/Private/Utilities/UPathFinder.cpp:23-25 | the recursive flag selects the recursive iterator's entries |
| PathFinder.ListFilesAsWritten | Source/Engine/Private/Utilities/UPathFinder.cpp:15-57 | a missing directory gives nothing; otherwise the paths of the entries that pass the filter, in iteration order |
| PathFinder.FilterFilesMembers | Source/Engine/Private/Utilities/UPathFinder.cpp:33-55 | a path is listed exactly when a regular-file entry with that path matches the filter; no other entry is ever listed |
| PathFinder.EmptyFilterKeepsRegularFiles | Source/Engine/Private/Utilities/UPathFinder.cpp:38-42 | an empty filter keeps every regular file, in order |
| PathFinder.DotlessFilterMatchesNothing | Source/Engine/Private/Utilities/UPathFinder.cpp:44-54 | as written, a non-empty filter without a leading period matches no file |
| PathFinder.DottedFilter | Source/Engine/Private/Utilities/UPathFinder.cpp:44-54 | a dot-less filter gets its period; any other filter is kept |
| PathFinder.ListFiles | Source/Engine/Private/Utilities/UPathFinder.cpp:15-57 | the listing of the dotted filter |
| PathFinder.DottedFilterMatchesGetExtension | Source/Engine/Private/Utilities/UPathFinder.cpp:44-54 | with the dotted filter, "png" keeps exactly the regular files whose GetExtension equals it, lowercased when asked to |
| PathFinder.ListDirectories | Source/Engine/Private/Utilities/UPathFinder.cpp:59-76 | a missing directory gives nothing; otherwise the directory entries' paths in iteration order |
| PathFinder.DirectoriesMembers | Source/Engine/Private/Utilities/UPathFinder.cpp:70-74 | a path is listed exactly when a directory entry has it |

## Left out

- Rendering is not modelled. This covers OpenGL, shaders, assimp mesh import and the model's draw call. `Draw` returns the matrix it would send as `u_Model`. A loaded model is identified by its source path.
- Matrix arithmetic is not modelled. `GetLocalTransform` and the world transform are kept symbolic (`Local(t)`, `Mul(a, b)`), and float components are reals.
- Only resources loaded through `ResourceManager` draw their id from `ObjectIdCounter`. A `SceneComponent` takes its id as a constructor argument, and actor ids come from the scene's own counter. So the uniqueness of ids across all objects is not modelled.
- Ids are unbounded. `s_NextID` (uint64_t) and `m_NextActorID` (unsigned int) are naturals, so wrap-around after 2^64 or 2^32 allocations is not modelled.
- The file system is not modelled. It becomes a `FileStore`: a map from path to a parsed JSON document or to an unparsable one, plus a set of paths that cannot be opened for writing.
  - `std::ctime` is a timestamp parameter.
  - `JsonReader::LoadFromFile` and `JsonWriter::SaveToFile` are not modelled.
  - `dump(4)` formatting is not modelled.
- Directory listings:
  - The directory iterators become the `Listing` parameter: the entries each iterator yields, in their order.
  - `FileExists` and `DirectoryExists` are not modelled.
  - `skip_permission_denied` is not modelled.
  - Paths are generic-format POSIX paths with `/` only, with no root name.
- `UPathFinder::Normalize` and `Join` are not modelled, because they use `lexically_normal`. `ResolvePath` and `FindProjectRoot` (header only) are not modelled either.
- `SceneManager::ListScenesMeta` and `ListAvailableSceneFiles` are not modelled, because they iterate a directory.
- `JScene::Serialize` and `JScene::Deserialize` have no body in the source.
  - SaveScene: `serialized` is a parameter.
  - LoadScene: does not deserialise actors.
- `JSceneManager`'s header-only members are not modelled: the name→scene map, `CreateScene` and `SetActiveScene`, which have no body.
- The callbacks are entries in an event log; a listener's own effect is not modelled.
- The resource manager is passed in explicitly instead of through the `JResourceManager::Get()` singleton.
- Ownership is modelled by a set of live instances. `shared_ptr` and `weak_ptr` reference counts are not modelled, and neither is the destruction of actors, resources or services.
- `dynamic_cast` and `dynamic_pointer_cast` become a class chain (`Actor.classChain`) or a class tag (`Resource.cls`).
- Resource keeps only the JModelResource behaviour. `JMeshAsset` and `JTextureAsset` are not part of this model beyond their type names.
- Services: `std::type_index` becomes a string key. The instance records only its type and its arguments.
- Access control is not modelled: `friend`, private mutators, and `TServiceContainer` being reachable only from `JEngine`.
- `JsonReader::ReadVec3` is not modelled: its indexed `value()` on an array is unclear.
- `JsonReader::GetData` is not modelled. `JsonWriter::GetData` returns the data.
- `StartObject`, `StartObject(key)`, `EndObject` and `JsonReader::GetChild` are not declared by the JSON classes. They are taken to write, and to read, a nested object.
- `JSceneComponent::DeserializeProperties` has a children loop that builds readers and does nothing with them. It is not modelled, and `parent_id` is read and dropped.
- `Components.SceneComponent.GetOwner` is modelled as returning the field `SetOwner` writes (`m_Owner`). The source reads a name (`Owner`) that `JComponent` does not declare.
- `GetOwner()->AddSceneComponent(this)` and `GetOwner()->GetRootComponent()` are not part of this model, because `JActor` declares neither:
  - the first is recorded as a hook;
  - the second is the `ownerRoot` parameter.
- Fuel bounds: `WorldTransform`, `Serialize` and `DetachAsWritten` recurse at most `fuel` levels, so a result exists only for hierarchies no deeper than the fuel. The cycle lemmas show that no fuel suffices on a cycle.
- `GetChildren` is not modelled as a separate member; the `children` field is read directly.
- `GetID` is not modelled as a separate member; the id is the `id` const field, which no operation can change.
- `Components.SceneComponent.Draw`: the world transform is passed with a fuel bound, so on a cyclic hierarchy it reports `None` as the matrix instead of recursing without end.

- SceneManagement.ReadSceneMeta and SceneManagement.ReadSceneMetaAsWritten: for a file that cannot be opened they return `DefaultMeta` ("Unnamed", 0, "", ""). That record is an assumption: the declaration of `struct SceneMeta` and its member initialisers is not part of this model. A struct without initialisers would give an empty name and an indeterminate count.
- SceneManagement.SceneManager.LoadScene: promises nothing about the loaded scene's actors, its id counter or its dirty flag, because `JScene::Deserialize` has no body in the source.
- Components.SceneComponent.AttachToComponent: its leaving step is the erase-and-clear part of `Detach` (`Unlink`), not `Detach` itself. So with a parent and an owner root it attaches where the source never returns. The as-written behaviour is `AttachToComponentAsWritten`, and Findings row 3 lists both.
- The JSON encoding of `glm::vec3` is an assumption. The source writes and reads vectors through nlohmann's generic conversion and declares no `adl_serializer` for `glm::vec3`. The model takes the three-element array `[x, y, z]` that `JsonWriter::WriteVec3` writes, in `WriteOwnFields`, `TransformObject` and `DeserializeTransform`.
- PathFinder.Walk: `UPathFinder.cpp:23-25` puts a `recursive_directory_iterator` and a `directory_iterator` in the two branches of one conditional, which have no common type. The model takes the flag to choose which iterator's entries are walked.

## Findings

| source | as written | input that shows it | evidently intended | confidence | as-written member | corrected member |
|---|---|---|---|---|---|---|
| Source/Engine/Public/Scene/JScene.h:139-148 | the typed `FindActorByID<T>` `static_cast`s whatever actor is indexed under the id | an id indexed for an actor whose class chain does not include T | null when the actor is not a T, as its doc comment at line 137 says | not executed | Scenes.Scene.FindActorByIDAsWritten, Scenes.Scene.TypedLookupIgnoresType, SceneManagement.SceneManager.FindActorByIDAsWritten, SceneManagement.SceneManager.TypedLookupIgnoresType | Scenes.Scene.FindActorByIDOfType, SceneManagement.SceneManager.FindActorByIDOfType |
| Source/Engine/Private/Framework/SceneManager.cpp:109-110 | `j["meta"].value(...)` is called on null when the file has no "meta" key, and throws `type_error` | a scene file holding `{"name": "Lake"}` | the defaults "" for last_modified and thumbnail, so the result is (Lake, 0, "", "") | not executed | SceneManagement.ReadSceneMetaAsWritten, SceneManagement.MetaMissingThrowsAsWritten | SceneManagement.ReadSceneMeta |
| Source/Engine/Private/Scene/Components/JSceneComponent.cpp:26-30 | `Detach` calls `AttachToComponent(root)` while `m_Parent` is still set, which calls `Detach` again, without end | a component with a parent, whose owner has a root component | leave the parent, then join the owner's root; `AttachToComponent` only leaves its old parent before joining the new one | not executed | Components.SceneComponent.DetachAsWritten, Components.SceneComponent.AttachToComponentAsWritten | Components.SceneComponent.Detach, Components.SceneComponent.AttachToComponent |
| Source/Engine/Private/Utilities/UPathFinder.cpp:44-54 | the filter is compared with `extension()`, which includes the period | the filter "png" and a file "a/b.png" | the dot-less filter the header documents ("png") matches files with that extension | not executed | PathFinder.ListFilesAsWritten, PathFinder.DotlessFilterMatchesNothing | PathFinder.ListFiles |

=== FILE: actor.dfy ===
/** JActor and its render configuration record FActorConfig: the entity a scene
    stores, with the fields the rendering and editor code read. */
module Actors {
  import opened Wrappers
  import opened Json
  import opened Geometry

  /** FActorConfig: the per-actor render flags. The thickness is a float, read as a real. */
  datatype ActorConfig = ActorConfig(drawOutline: bool, backCulling: bool, outlineThickness: real)

  /** The field initialisers: outline off, back-culling off, thickness 0.05. */
  const DefaultConfig: ActorConfig := ActorConfig(false, false, 0.05)

  /** The keys FActorConfig::Serialize writes, each holding its field. */
  function ConfigFields(c: ActorConfig): (m: map<string, Json>)
    ensures m.Keys == {"draw_outline", "back_culling", "outline_thickness"}
    ensures AsBool(m["draw_outline"]) == Some(c.drawOutline)
    ensures AsBool(m["back_culling"]) == Some(c.backCulling)
    ensures AsReal(m["outline_thickness"]) == Some(c.outlineThickness)
  {
    map["draw_outline" := EncodeBool(c.drawOutline),
        "back_culling" := EncodeBool(c.backCulling),
        "outline_thickness" := EncodeReal(c.outlineThickness)]
  }

  /** FActorConfig::Serialize: write the three keys into the writer, keeping what it held. */
  method SerializeConfig(c: ActorConfig, w: JsonWriter)
    requires w.Valid()
    modifies w
    ensures w.Valid() && w.Fields() == old(w.Fields()) + ConfigFields(c)
  {
    w.Write("draw_outline", EncodeBool(c.drawOutline));
    w.Write("back_culling", EncodeBool(c.backCulling));
    w.Write("outline_thickness", EncodeReal(c.outlineThickness));
  }

  /** The config after FActorConfig::Deserialize, and the type_error if one of the reads threw.
      The three fields are assigned one after another, each read falling back to the field's
      initialiser; a read that throws leaves that field and the later ones as they were. */
  datatype ConfigRead = ConfigRead(config: ActorConfig, thrown: Option<JsonError>)

  function DeserializeConfig(c: ActorConfig, data: Json): (r: ConfigRead)
    ensures r.thrown == None <==>
              && ReadAs(data, "draw_outline", false, AsBool).Ok?
              && ReadAs(data, "back_culling", false, AsBool).Ok?
              && ReadAs(data, "outline_thickness", 0.05, AsReal).Ok?
    ensures r.thrown == None ==>
              r.config == ActorConfig(ReadAs(data, "draw_outline", false, AsBool).value,
                                      ReadAs(data, "back_culling", false, AsBool).value,
                                      ReadAs(data, "outline_thickness", 0.05, AsReal).value)
  {
    match ReadAs(data, "draw_outline", false, AsBool)
    case Err(e) => ConfigRead(c, Some(e))
    case Ok(outline) =>
      var c1 := c.(drawOutline := outline);
      match ReadAs(data, "back_culling", false, AsBool)
      case Err(e) => ConfigRead(c1, Some(e))
      case Ok(culling) =>
        var c2 := c1.(backCulling := culling);
        match ReadAs(data, "outline_thickness", 0.05, AsReal)
        case Err(e) => ConfigRead(c2, Some(e))
        case Ok(thickness) => ConfigRead(c2.(outlineThickness := thickness), None)
  }

  /** The fallbacks equal the initialisers: deserialising an object without the keys (or the
      null an unwritten writer holds) gives the default config, whatever the config was. */
  lemma {:induction false} DeserializeEmptyIsDefault(c: ActorConfig, data: Json)
    requires data == JObj(map[]) || data == JNull
    ensures DeserializeConfig(c, data) == ConfigRead(DefaultConfig, None)
  {
    assert !Contains(data, "draw_outline") && !Contains(data, "back_culling") && !Contains(data, "outline_thickness");
  }

  /** Round trip: deserialising what Serialize wrote reproduces the config, whatever the
      writer held before and whatever the config being overwritten was. */
  lemma {:induction false} ConfigRoundTrip(before: map<string, Json>, c: ActorConfig, previous: ActorConfig)
    ensures DeserializeConfig(previous, JObj(before + ConfigFields(c))) == ConfigRead(c, None)
  {
    var data := JObj(before + ConfigFields(c));
    assert data.fields["draw_outline"] == JBool(c.drawOutline);
    assert data.fields["back_culling"] == JBool(c.backCulling);
    assert data.fields["outline_thickness"] == JNum(c.outlineThickness);
  }

  /** The JModel an actor draws, as an opaque handle (a raw, non-owning pointer). */
  datatype ModelRef = ModelRef(handle: nat)

  /** The dynamic type of an actor: its class name first, then its base classes, ending with JActor. */
  predicate IsClassChain(chain: seq<string>)
  {
    |chain| >= 1 && chain[|chain| - 1] == "JActor"
  }

  /** Every field of a except its storage slot is what it was: what a scene's bookkeeping may
      touch on an actor it keeps is m_VectorIndex alone. */
  twostate predicate KeepsFields(a: Actor)
    reads a
  {
    && a.id == old(a.id) && a.name == old(a.name)
    && a.position == old(a.position) && a.rotation == old(a.rotation) && a.scale == old(a.scale)
    && a.model == old(a.model) && a.config == old(a.config)
  }

  /** JActor. The id is the one its scene assigns when spawning it. */
  class Actor {
    const classChain: seq<string>
    var id: nat
    var name: string
    var vectorIndex: nat
    var position: Vec3
    var rotation: Vec3
    var scale: Vec3
    var model: Option<ModelRef>
    var config: ActorConfig

    /** JActor(): position and rotation 0, scale 1, no model, vector index 0, default config. */
    constructor Default(classChain: seq<string>)
      requires IsClassChain(classChain)
      ensures this.classChain == classChain && id == 0 && name == "" && vectorIndex == 0
      ensures position == Splat(0.0) && rotation == Splat(0.0) && scale == Splat(1.0)
      ensures model == None && config == DefaultConfig
    {
      this.classChain := classChain;
      id := 0;
      name := "";
      vectorIndex := 0;
      position, rotation, scale := Splat(0.0), Splat(0.0), Splat(1.0);
      model := None;
      config := DefaultConfig;
    }

    /** JActor(model, name, position, rotation, scale): stores all five; the rest as by default. */
    constructor (classChain: seq<string>, model: Option<ModelRef>, name: string,
                 position: Vec3, rotation: Vec3, scale: Vec3)
      requires IsClassChain(classChain)
      ensures this.classChain == classChain && id == 0 && vectorIndex == 0 && config == DefaultConfig
      ensures this.model == model && this.name == name
      ensures this.position == position && this.rotation == rotation && this.scale == scale
    {
      this.classChain := classChain;
      id := 0;
      vectorIndex := 0;
      this.model := model;
      this.name := name;
      this.position, this.rotation, this.scale := position, rotation, scale;
      config := DefaultConfig;
    }

    /** JActor(model, name) with the transform arguments left to their defaults {0}, {0}, {1}. */
    constructor Named(classChain: seq<string>, model: Option<ModelRef>, name: string)
      requires IsClassChain(classChain)
      ensures this.classChain == classChain && id == 0 && vectorIndex == 0 && config == DefaultConfig
      ensures this.model == model && this.name == name
      ensures position == Splat(0.0) && rotation == Splat(0.0) && scale == Splat(1.0)
    {
      this.classChain := classChain;
      id := 0;
      vectorIndex := 0;
      this.model := model;
      this.name := name;
      position, rotation, scale := Splat(0.0), Splat(0.0), Splat(1.0);
      config := DefaultConfig;
    }
  }

  /** dynamic_cast<T*>(actor) succeeds: T is the actor's class or one of its bases. */
  predicate IsA(a: Actor, typeName: string)
  {
    typeName in a.classChain
  }
}

=== FILE: components.dfy ===
/** The component chain JComponent -> JTransformComponent -> JSceneComponent -> JModelComponent,
    modelled as one class of scene components: the owner links, the local transform, the
    parent/children links of the scene graph, and the model a model component draws. */
module Components {
  import opened Wrappers
  import opened Geometry
  import opened Json
  import opened Text
  import opened CoreObject
  import opened Resources
  import opened Actors

  /** The hook calls a component makes, in order: the Initialize hook, and the owner's
      AddSceneComponent (JActor does not declare it; the call is recorded, its effect is not
      part of this model). */
  datatype Hook = InitializeCalled | AddedToOwnerGraph(owner: Actor)

  /** s with every occurrence of x erased, the rest in order: the erase-remove idiom. */
  function Without<T(==)>(s: seq<T>, x: T): (r: seq<T>)
    ensures x !in r && |r| <= |s|
    ensures forall y :: y in r ==> y in s
    ensures forall y :: y in s && y != x ==> y in r
    ensures x !in s ==> r == s
  {
    if s == [] then [] else (if s[0] == x then [] else [s[0]]) + Without(s[1..], x)
  }

  /** Erasing keeps the order of what remains: it distributes over concatenation. */
  lemma {:induction false} WithoutDistributes<T>(a: seq<T>, b: seq<T>, x: T)
    ensures Without(a + b, x) == Without(a, x) + Without(b, x)
  {
    if a != [] {
      assert (a + b)[0] == a[0] && (a + b)[1..] == a[1..] + b;
      WithoutDistributes(a[1..], b, x);
    } else {
      assert a + b == b;
    }
  }

  /** No element occurs twice. */
  predicate NoDuplicates<T(==)>(s: seq<T>)
  {
    forall i, j :: 0 <= i < j < |s| ==> s[i] != s[j]
  }

  /** Erasing keeps a list free of duplicates. */
  lemma {:induction false} WithoutNoDuplicates<T>(s: seq<T>, x: T)
    requires NoDuplicates(s)
    ensures NoDuplicates(Without(s, x))
  {
    if s != [] {
      assert NoDuplicates(s[1..]);
      WithoutNoDuplicates(s[1..], x);
      assert s[0] !in s[1..];
    }
  }

  class SceneComponent {
    /** GetID(): the id the component is constructed with, never changed. */
    const id: nat
    /** The dynamic class: JSceneComponent or JModelComponent. */
    const cls: ClassName
    /** m_Owner (JComponent). */
    var owner: Actor?
    /** m_OwnerActor (JSceneComponent). */
    var ownerActor: Actor?
    var position: Vec3
    var rotation: Vec3
    var scale: Vec3
    var parent: SceneComponent?
    var children: seq<SceneComponent>
    /** m_ModelPath and the target of the weak m_ModelResource (model components only). */
    var modelPath: string
    var modelResource: Resource?
    var hooks: seq<Hook>

    /** A new scene component: no owner, transform 0/0/1, null parent, no children, no model. */
    constructor (id: nat, cls: ClassName)
      requires cls == JSceneComponentClass || cls == JModelComponentClass
      ensures this.id == id && this.cls == cls && owner == null && ownerActor == null
      ensures position == Splat(0.0) && rotation == Splat(0.0) && scale == Splat(1.0)
      ensures parent == null && children == [] && modelPath == "" && modelResource == null && hooks == []
    {
      this.id := id;
      this.cls := cls;
      owner, ownerActor := null, null;
      position, rotation, scale := Splat(0.0), Splat(0.0), Splat(1.0);
      parent, children := null, [];
      modelPath, modelResource := "", null;
      hooks := [];
    }

    /** The local transform GetLocalTransform composes from position, rotation and scale. */
    function LocalTransform(): Transform
      reads this
    {
      Transform(position, rotation, scale)
    }

    /** GetParent(): null exactly for a hierarchy root. */
    function GetParent(): (p: SceneComponent?)
      reads this
      ensures p == null <==> parent == null
    {
      parent
    }

    /** SetOwner(actor) (JComponent): record the owning actor; nothing else changes. */
    method SetOwner(actor: Actor?)
      modifies this`owner
      ensures owner == actor
    {
      owner := actor;
    }

    /** GetOwner(): the owner SetOwner recorded. */
    function GetOwner(): Actor?
      reads this
    {
      owner
    }

    /** SetOwnerActor(actor) (JSceneComponent): record it; GetOwnerActor returns it. */
    method SetOwnerActor(actor: Actor?)
      modifies this`ownerActor
      ensures ownerActor == actor && GetOwnerActor() == actor
    {
      ownerActor := actor;
    }

    function GetOwnerActor(): Actor?
      reads this
    {
      ownerActor
    }

    /** Initialize(): the default hook does nothing; the call itself is recorded. */
    method Initialize()
      modifies this`hooks
      ensures hooks == old(hooks) + [InitializeCalled]
    {
      hooks := hooks + [InitializeCalled];
    }

    /** OnAttachment(): the base hook calls Initialize once; the scene component then hands
        itself to its owner's scene graph when it has an owner. */
    method OnAttachment()
      modifies this`hooks
      ensures hooks == old(hooks) + [InitializeCalled] + (if owner != null then [AddedToOwnerGraph(owner)] else [])
    {
      Initialize();
      if owner != null {
        hooks := hooks + [AddedToOwnerGraph(owner)];
      }
    }

    /** Tick(deltaTime): the default does nothing, for any delta. */
    method Tick(deltaTime: real)
      ensures unchanged(this)
    {
    }

    /** The erase-remove part of Detach, and what AttachToComponent's detaching step is meant to do:
        the component leaves its parent's children, the other children keeping their order, and
        has no parent. */
    method Unlink(ghost nodes: set<SceneComponent>)
      requires this in nodes && Consistent(nodes)
      modifies this`parent, nodes`children
      ensures Consistent(nodes) && parent == null
      ensures forall n :: n in nodes ==> n.children == Without(old(n.children), this)
      ensures forall n :: n in nodes && n != this ==> n.parent == old(n.parent)
    {
      if parent != null {
        var q := parent;
        WithoutNoDuplicates(q.children, this);
        q.children := Without(q.children, this);
      }
      parent := null;
    }

    /** The attaching step of AttachToComponent on a component that is a root: take p as parent
        and join the end of p's children. */
    method Link(p: SceneComponent?, ghost nodes: set<SceneComponent>)
      requires this in nodes && (p == null || p in nodes) && Consistent(nodes) && parent == null
      modifies this`parent, nodes`children
      ensures Consistent(nodes) && parent == p
      ensures p != null ==> p.children == old(p.children) + [this]
      ensures forall n :: n in nodes && n != p ==> n.children == old(n.children)
      ensures forall n :: n in nodes && n != this ==> n.parent == old(n.parent)
    {
      assert forall n :: n in nodes ==> this !in n.children;
      parent := p;
      if p != null {
        p.children := p.children + [this];
      }
    }

    /** AttachToComponent(p), corrected: leave the current parent, take p as parent and join the
        end of p's children. With p null the component ends up a root, as documented. The
        leaving step is Unlink rather than the source's Detach, whose re-attachment to the
        owner's root never returns; see AttachToComponentAsWritten. */
    method AttachToComponent(p: SceneComponent?, ghost nodes: set<SceneComponent>)
      requires this in nodes && (p == null || p in nodes) && Consistent(nodes)
      modifies this`parent, nodes`children
      ensures Consistent(nodes) && parent == p
      ensures p != null ==> p.children == Without(old(p.children), this) + [this]
      ensures forall n :: n in nodes && n != p ==> n.children == Without(old(n.children), this)
      ensures forall n :: n in nodes && n != this ==> n.parent == old(n.parent)
    {
      Unlink(nodes);
      Link(p, nodes);
    }

    /** Detach(): leave the parent; then join the owner's root component when the owner has one,
        or stay a root. ownerRoot stands for the owner's GetRootComponent(), which JActor does not
        declare. The parent is cleared before the re-attachment; see DetachAsWritten. */
    method Detach(ownerRoot: SceneComponent?, ghost nodes: set<SceneComponent>)
      requires this in nodes && (ownerRoot == null || ownerRoot in nodes) && Consistent(nodes)
      modifies this`parent, nodes`children
      ensures Consistent(nodes)
      ensures parent == (if owner != null then ownerRoot else null)
      ensures owner != null && ownerRoot != null ==> ownerRoot.children == Without(old(ownerRoot.children), this) + [this]
      ensures forall n :: n in nodes && (owner == null || n != ownerRoot) ==> n.children == Without(old(n.children), this)
      ensures forall n :: n in nodes && n != this ==> n.parent == old(n.parent)
    {
      Unlink(nodes);
      if owner != null && ownerRoot != null {
        AttachToComponent(ownerRoot, nodes);
      }
    }

    /** AttachToComponent as written, followed for at most fuel nested calls (false: the fuel ran
        out before the call returned). */
    method AttachToComponentAsWritten(p: SceneComponent?, ownerRoot: SceneComponent?,
                                      ghost nodes: set<SceneComponent>, fuel: nat) returns (finished: bool)
      requires this in nodes && (p == null || p in nodes) && (ownerRoot == null || ownerRoot in nodes) && Closed(nodes)
      modifies this`parent, nodes`children
      ensures old(parent) != null && owner != null && ownerRoot != null ==> !finished
      decreases fuel
    {
      if parent != null {
        if fuel == 0 {
          return false;
        }
        finished := DetachAsWritten(ownerRoot, nodes, fuel - 1);
        if !finished {
          return false;
        }
      }
      parent := p;
      if p != null {
        p.children := p.children + [this];
      }
      return true;
    }

    /** Detach as written: the parent is still set when it calls AttachToComponent(root), which
        therefore calls Detach again, and so on. With a parent and an owner root it never returns,
        whatever the fuel. */
    method DetachAsWritten(ownerRoot: SceneComponent?, ghost nodes: set<SceneComponent>, fuel: nat)
      returns (finished: bool)
      requires this in nodes && (ownerRoot == null || ownerRoot in nodes) && Closed(nodes)
      modifies this`parent, nodes`children
      ensures old(parent) != null && owner != null && ownerRoot != null ==> !finished
      decreases fuel
    {
      if parent != null {
        var q := parent;
        q.children := Without(q.children, this);
      }
      if owner != null && ownerRoot != null {
        if fuel == 0 {
          return false;
        }
        finished := AttachToComponentAsWritten(ownerRoot, ownerRoot, nodes, fuel - 1);
      } else {
        parent := null;
        finished := true;
      }
    }

    /** Serialize(w): the object Record describes, when the recursion through the children stays
        within fuel; false when it does not. Each child is written by its own writer and stored
        under its child key. */
    method Serialize(w: JsonWriter, ghost nodes: set<SceneComponent>, fuel: nat) returns (done: bool)
      requires this in nodes && Closed(nodes) && w.Valid()
      modifies w
      ensures w.Valid() && unchanged(nodes)
      ensures done <==> Record(this, nodes, fuel).Some?
      ensures done ==> w.data == ToJson(Record(this, nodes, fuel).value)
      decreases fuel, 3
    {
      if fuel == 0 {
        return false;
      }
      done := WriteRecord(w, nodes, fuel - 1);
    }

    /** The body of Serialize once the recursion is within fuel: its own fields, the children
        (each within the fuel left), then the parent id and the model path. */
    method WriteRecord(w: JsonWriter, ghost nodes: set<SceneComponent>, fuel: nat) returns (done: bool)
      requires this in nodes && Closed(nodes) && w.Valid()
      modifies w
      ensures w.Valid() && unchanged(nodes)
      ensures done <==> ChildRecords(children, |children|, nodes, fuel).Some?
      ensures done ==> w.data == JObj(Fields(ComponentRecord(cls, id, LocalTransform(),
                                                             ChildRecords(children, |children|, nodes, fuel).value,
                                                             if parent == null then 0 else parent.id, modelPath)))
      decreases fuel + 1, 2
    {
      WriteOwnFields(w);
      done := WriteChildren(w, nodes, fuel);
      if done {
        WriteLinkFields(w);
        ChildRecordsAt(children, |children|, nodes, fuel);
      }
    }

    /** The loop of SerializeProperties over the children: child_i gets the record a fresh writer
        holds after the i-th child's Serialize; false as soon as one of them does not finish. */
    method WriteChildren(w: JsonWriter, ghost nodes: set<SceneComponent>, fuel: nat) returns (done: bool)
      requires this in nodes && Closed(nodes) && w.data.JObj?
      modifies w
      ensures unchanged(nodes) && w.data.JObj?
      ensures done <==> ChildRecords(children, |children|, nodes, fuel).Some?
      ensures done ==> w.data == JObj(old(w.Fields()) + ChildMap(ChildRecords(children, |children|, nodes, fuel).value, |children|))
      decreases fuel + 1, 1
    {
      ghost var own := w.Fields();
      var i := 0;
      while i < |children|
        invariant 0 <= i <= |children|
        invariant ChildRecords(children, i, nodes, fuel).Some?
        invariant w.data == JObj(own + ChildMap(ChildRecords(children, i, nodes, fuel).value, i))
        invariant unchanged(nodes) && w.data.JObj?
      {
        ghost var prev := ChildRecords(children, i, nodes, fuel).value;
        var childDone := WriteChild(w, i, nodes, fuel);
        if !childDone {
          ChildFailureFailsAll(children, i, nodes, fuel);
          return false;
        }
        ghost var rec := Record(children[i], nodes, fuel).value;
        assert ChildRecords(children, i + 1, nodes, fuel) == Some(prev + [rec]);
        ChildMapStep(own, prev, rec);
        i := i + 1;
      }
      done := true;
    }

    /** One step of that loop: the i-th child is serialised into a fresh writer and stored under
        child_i; false when that child does not finish. */
    method WriteChild(w: JsonWriter, i: nat, ghost nodes: set<SceneComponent>, fuel: nat) returns (childDone: bool)
      requires this in nodes && Closed(nodes) && i < |children| && w.data.JObj?
      modifies w
      ensures unchanged(nodes) && w.data.JObj?
      ensures childDone <==> Record(children[i], nodes, fuel).Some?
      ensures childDone ==> w.data == JObj(old(w.Fields())[ChildKey(i) := ToJson(Record(children[i], nodes, fuel).value)])
      decreases fuel + 1, 0
    {
      var cw := new JsonWriter();
      childDone := children[i].Serialize(cw, nodes, fuel);
      if childDone {
        w.Write(ChildKey(i), cw.GetData());
      }
    }

    /** The start of Serialize: a fresh object with the type, the id, the transform object and
        children_count. */
    method WriteOwnFields(w: JsonWriter)
      modifies w
      ensures w.Valid() && w.data == JObj(OwnFields(cls, id, LocalTransform(), |children|))
    {
      w.BeginObject();
      w.Write("type", EncodeString(TypeName(cls)));
      w.Write("id", EncodeInt(id));
      var tw := new JsonWriter();
      tw.BeginObject();
      tw.WriteVec3("position", position);
      tw.WriteVec3("rotation", rotation);
      tw.WriteVec3("scale", scale);
      assert tw.GetData() == TransformObject(LocalTransform());
      w.Write("transform", tw.GetData());
      w.Write("children_count", EncodeInt(|children|));
    }

    /** The end of Serialize: parent_id, then model_path for a model component. */
    method WriteLinkFields(w: JsonWriter)
      requires w.Valid()
      modifies w
      ensures w.Valid() && w.data == JObj(LinkFields(cls, if parent == null then 0 else parent.id, modelPath, old(w.Fields())))
    {
      w.Write("parent_id", EncodeInt(if parent == null then 0 else parent.id));
      if cls == JModelComponentClass {
        w.Write("model_path", EncodeString(modelPath));
      }
    }

    /** Deserialize(data): only DeserializeProperties runs (the id is not read). The transform,
        the model path and the thrown error are those ReadProperties gives; a model component
        whose read succeeded with a non-empty path loads it through the manager, keyed and built
        by the path, and binds the result; otherwise the binding and the manager stay as they were. */
    method Deserialize(data: Json, rm: ResourceManager) returns (thrown: Option<JsonError>)
      requires rm.Valid()
      modifies this`position, this`rotation, this`scale, this`modelPath, this`modelResource, rm, rm.ids
      ensures rm.Valid()
      ensures var r := ReadProperties(cls, old(LocalTransform()), old(modelPath), data);
                LocalTransform() == r.transform && modelPath == r.modelPath && thrown == r.thrown
      ensures cls == JModelComponentClass && thrown == None && modelPath != "" ==>
                && rm.Has(modelPath)
                && (modelPath in old(rm.byKey) ==>
                      && modelResource == (if old(rm.byKey)[modelPath].cls == JModelResourceClass then old(rm.byKey)[modelPath] else null)
                      && rm.byKey == old(rm.byKey) && rm.byId == old(rm.byId))
                && (modelPath !in old(rm.byKey) ==>
                      && modelResource != null && fresh(modelResource) && modelResource.path == modelPath
                      && modelResource.cls == JModelResourceClass
                      && modelResource.model == Some(LoadedModel(modelPath))
                      && rm.byKey == old(rm.byKey)[modelPath := modelResource]
                      && rm.byId == old(rm.byId)[modelResource.id := modelResource])
      ensures !(cls == JModelComponentClass && thrown == None && modelPath != "") ==>
                modelResource == old(modelResource) && rm.byKey == old(rm.byKey) && rm.byId == old(rm.byId)
    {
      var r := ReadProperties(cls, LocalTransform(), modelPath, data);
      position, rotation, scale := r.transform.position, r.transform.rotation, r.transform.scale;
      modelPath := r.modelPath;
      thrown := r.thrown;
      if cls == JModelComponentClass && thrown == None && modelPath != "" {
        modelResource := rm.Load(modelPath, JModelResourceClass, modelPath);
      }
    }

    /** SetModel(path) (JModelComponent): record the path and bind what the manager's Load gives
        for the path as key and as constructor argument: the cached instance (null when it is not
        a model resource), or a new model resource built from the path. */
    method SetModel(path: string, rm: ResourceManager)
      requires cls == JModelComponentClass && rm.Valid()
      modifies this`modelPath, this`modelResource, rm, rm.ids
      ensures rm.Valid() && modelPath == path && rm.Has(path)
      ensures path in old(rm.byKey) ==>
                && modelResource == (if old(rm.byKey)[path].cls == JModelResourceClass then old(rm.byKey)[path] else null)
                && rm.byKey == old(rm.byKey)
      ensures path !in old(rm.byKey) ==>
                && modelResource != null && fresh(modelResource) && modelResource.path == path
                && modelResource.cls == JModelResourceClass
                && modelResource.model == Some(LoadedModel(path)) && rm.byKey == old(rm.byKey)[path := modelResource]
    {
      modelPath := path;
      modelResource := rm.Load(path, JModelResourceClass, path);
    }

    /** GetModel(): locking the weak reference, which yields the bound resource only while some
        shared owner (the set alive) still keeps it. */
    function GetModel(alive: set<Resource>): (r: Resource?)
      reads this
      ensures r != null <==> modelResource != null && modelResource in alive
      ensures r != null ==> r == modelResource
    {
      if modelResource != null && modelResource in alive then modelResource else null
    }

    /** Draw(shader): it draws, with the world transform as the model matrix, exactly when the
        resource is still alive and wraps a model; otherwise nothing happens. */
    method Draw(alive: set<Resource>, nodes: set<SceneComponent>, fuel: nat) returns (drew: bool, matrix: Option<Mat>)
      requires this in nodes && Closed(nodes)
      ensures drew <==> GetModel(alive) != null && GetModel(alive).model.Some?
      ensures drew ==> matrix == WorldTransform(this, nodes, fuel)
      ensures !drew ==> matrix == None
    {
      var modelRes := GetModel(alive);
      if modelRes != null && modelRes.GetModel().Some? {
        return true, WorldTransform(this, nodes, fuel);
      }
      return false, None;
    }
  }

  /** The graph is closed: every parent and every child of a node is a node. */
  ghost predicate Closed(nodes: set<SceneComponent>)
    reads nodes
  {
    forall n :: n in nodes ==> (n.parent == null || n.parent in nodes) && (forall ch :: ch in n.children ==> ch in nodes)
  }

  /** The links agree: c is among p's children exactly when p is c's parent, and no children
      list names a component twice. */
  ghost predicate Consistent(nodes: set<SceneComponent>)
    reads nodes
  {
    && Closed(nodes)
    && (forall c, p :: c in nodes && p in nodes ==> (c in p.children <==> c.parent == p))
    && (forall n :: n in nodes ==> NoDuplicates(n.children))
  }


  // ---------------------------------------------------------------------------
  // World transform.
  // ---------------------------------------------------------------------------

  /** GetWorldTransform(), followed for at most fuel ancestors: the parent's world transform times
      the local one, or the local one alone for a root. None when the fuel runs out first, which
      on a cycle of parents (AttachToComponent does not check for cycles) it always does. */
  function WorldTransform(c: SceneComponent, nodes: set<SceneComponent>, fuel: nat): Option<Mat>
    requires c in nodes && Closed(nodes)
    reads nodes
    decreases fuel
  {
    if fuel == 0 then None
    else if c.parent == null then Some(Local(c.LocalTransform()))
    else match WorldTransform(c.parent, nodes, fuel - 1)
      case None => None
      case Some(pm) => Some(Mul(pm, Local(c.LocalTransform())))
  }

  /** The chain of ancestors of c, root first and c last, when it has at most fuel links. */
  function AncestorChain(c: SceneComponent, nodes: set<SceneComponent>, fuel: nat): (r: Option<seq<SceneComponent>>)
    requires c in nodes && Closed(nodes)
    reads nodes
    ensures r.Some? ==> |r.value| >= 1 && r.value[|r.value| - 1] == c && r.value[0].parent == null
    ensures r.Some? ==> forall i :: 0 <= i < |r.value| ==> r.value[i] in nodes
    ensures r.Some? ==> forall i :: 0 <= i < |r.value| - 1 ==> r.value[i + 1].parent == r.value[i]
    decreases fuel
  {
    if fuel == 0 then None
    else if c.parent == null then Some([c])
    else match AncestorChain(c.parent, nodes, fuel - 1)
      case None => None
      case Some(chain) => Some(chain + [c])
  }

  /** The product acc * L(rest[0]) * L(rest[1]) * ..., multiplied from the left. */
  function ComposeFromRoot(acc: Mat, rest: seq<SceneComponent>): Mat
    reads rest
    decreases |rest|
  {
    if rest == [] then acc else ComposeFromRoot(Mul(acc, Local(rest[0].LocalTransform())), rest[1..])
  }

  lemma {:induction false} ComposeFromRootSnoc(acc: Mat, rest: seq<SceneComponent>, x: SceneComponent)
    ensures ComposeFromRoot(acc, rest + [x]) == Mul(ComposeFromRoot(acc, rest), Local(x.LocalTransform()))
    decreases |rest|
  {
    if rest != [] {
      assert (rest + [x])[0] == rest[0] && (rest + [x])[1..] == rest[1..] + [x];
      ComposeFromRootSnoc(Mul(acc, Local(rest[0].LocalTransform())), rest[1..], x);
    }
  }

  /** The world transform is the fold of the local transforms along the ancestor chain, from the
      root down to the component; it exists exactly when that chain is finite within the fuel. */
  lemma {:induction false} WorldTransformIsFold(c: SceneComponent, nodes: set<SceneComponent>, fuel: nat)
    requires c in nodes && Closed(nodes)
    ensures WorldTransform(c, nodes, fuel).Some? <==> AncestorChain(c, nodes, fuel).Some?
    ensures AncestorChain(c, nodes, fuel).Some? ==>
              var chain := AncestorChain(c, nodes, fuel).value;
              WorldTransform(c, nodes, fuel).value == ComposeFromRoot(Local(chain[0].LocalTransform()), chain[1..])
    decreases fuel
  {
    if fuel > 0 && c.parent != null {
      WorldTransformIsFold(c.parent, nodes, fuel - 1);
      var up := AncestorChain(c.parent, nodes, fuel - 1);
      if up.Some? {
        var chain := up.value + [c];
        assert chain[0] == up.value[0] && chain[1..] == up.value[1..] + [c];
        ComposeFromRootSnoc(Local(up.value[0].LocalTransform()), up.value[1..], c);
      }
    }
  }

  /** On a cycle of parents (a set of components whose parents all lie in the set) no world
      transform is ever produced: GetWorldTransform recurses without end there. */
  lemma {:induction false} CycleHasNoWorldTransform(cycle: set<SceneComponent>, c: SceneComponent,
                                                   nodes: set<SceneComponent>, fuel: nat)
    requires c in cycle && cycle <= nodes && Closed(nodes)
    requires forall x :: x in cycle ==> x.parent != null && x.parent in cycle
    ensures WorldTransform(c, nodes, fuel) == None
    decreases fuel
  {
    if fuel > 0 {
      CycleHasNoWorldTransform(cycle, c.parent, nodes, fuel - 1);
    }
  }

  // ---------------------------------------------------------------------------
  // Serialised records.
  // ---------------------------------------------------------------------------

  /** The "transform" object JTransformComponent::SerializeProperties writes: position,
      rotation and scale, each as a vector. */
  function TransformObject(t: Transform): (j: Json)
    ensures j.JObj? && j.fields.Keys == {"position", "rotation", "scale"}
    ensures AsVec3(j.fields["position"]) == Some(t.position)
    ensures AsVec3(j.fields["rotation"]) == Some(t.rotation)
    ensures AsVec3(j.fields["scale"]) == Some(t.scale)
  {
    JObj(map["position" := EncodeVec3(t.position), "rotation" := EncodeVec3(t.rotation), "scale" := EncodeVec3(t.scale)])
  }

  /** The key of the i-th child's record: "child_" followed by std::to_string(i). */
  function ChildKey(i: nat): (k: string)
    ensures |k| >= 7 && k[..6] == "child_" && k[6..] == NatToString(i)
  {
    "child_" + NatToString(i)
  }

  /** Different children get different keys. */
  lemma ChildKeyInjective(i: nat, j: nat)
    requires ChildKey(i) == ChildKey(j)
    ensures i == j
  {
    assert NatToString(i) == ChildKey(i)[6..] == ChildKey(j)[6..] == NatToString(j);
    NatToStringInjective(i, j);
  }

  /** The keys the record holds besides the children's. */
  const FixedKeys: set<string> := {"type", "id", "transform", "children_count", "parent_id", "model_path"}

  lemma UnionThenUpdate<K, V>(a: map<K, V>, b: map<K, V>, k: K, v: V)
    ensures (a + b)[k := v] == a + b[k := v]
  {
  }

  /** Storing one more record under the next child key extends the child map by that record. */
  lemma ChildMapStep(own: map<string, Json>, prev: seq<ComponentRecord>, rec: ComponentRecord)
    ensures (own + ChildMap(prev, |prev|))[ChildKey(|prev|) := ToJson(rec)]
            == own + ChildMap(prev + [rec], |prev| + 1)
  {
    ChildMapPrefix(prev, prev + [rec], |prev|);
    UnionThenUpdate(own, ChildMap(prev, |prev|), ChildKey(|prev|), ToJson(rec));
  }

  /** A child key never collides with the other keys of the record. */
  lemma ChildKeyIsNotFixed(i: nat)
    ensures ChildKey(i) !in FixedKeys
  {
    var k := ChildKey(i);
    assert k[0] == 'c' && k[5] == '_';
  }

  /** What Serialize writes for one component, before it is laid out as JSON keys: the class,
      the id, the local transform, the children's records in order, the parent's id (0 for a
      root) and the model path (written by model components only). */
  datatype ComponentRecord = ComponentRecord(cls: ClassName, id: nat, transform: Transform,
                                             children: seq<ComponentRecord>, parentId: nat, modelPath: string)

  /** The record Serialize writes for c. None when the recursion through the children goes
      deeper than fuel, which on a cycle of children it always does. */
  function Record(c: SceneComponent, nodes: set<SceneComponent>, fuel: nat): Option<ComponentRecord>
    requires c in nodes && Closed(nodes)
    reads nodes
    decreases fuel, 1
  {
    if fuel == 0 then None
    else match ChildRecords(c.children, |c.children|, nodes, fuel - 1)
      case None => None
      case Some(recs) =>
        Some(ComponentRecord(c.cls, c.id, c.LocalTransform(), recs,
                             if c.parent == null then 0 else c.parent.id, c.modelPath))
  }

  /** The records of the first k children, in order, each written by a fresh writer; None as soon
      as one of them is. */
  function ChildRecords(cs: seq<SceneComponent>, k: nat, nodes: set<SceneComponent>, fuel: nat): (r: Option<seq<ComponentRecord>>)
    requires k <= |cs| && (forall x :: x in cs ==> x in nodes) && Closed(nodes)
    reads nodes
    ensures r.Some? ==> |r.value| == k
    decreases fuel, 2, k
  {
    if k == 0 then Some([])
    else match ChildRecords(cs, k - 1, nodes, fuel)
      case None => None
      case Some(prev) =>
        match Record(cs[k - 1], nodes, fuel)
        case None => None
        case Some(rec) => Some(prev + [rec])
  }

  /** The i-th record is that of the i-th child, for every i < k. */
  lemma {:induction false} ChildRecordsAt(cs: seq<SceneComponent>, k: nat, nodes: set<SceneComponent>, fuel: nat)
    requires k <= |cs| && (forall x :: x in cs ==> x in nodes) && Closed(nodes)
    requires ChildRecords(cs, k, nodes, fuel).Some?
    ensures forall i :: 0 <= i < k ==>
              (Record(cs[i], nodes, fuel).Some? && ChildRecords(cs, k, nodes, fuel).value[i] == Record(cs[i], nodes, fuel).value)
  {
    if k > 0 {
      ChildRecordsAt(cs, k - 1, nodes, fuel);
    }
  }

  /** Once a child's record fails, every longer prefix of the children fails too. */
  lemma {:induction false} ChildRecordsFailureSticks(cs: seq<SceneComponent>, k: nat, k': nat,
                                                     nodes: set<SceneComponent>, fuel: nat)
    requires k <= k' <= |cs| && (forall x :: x in cs ==> x in nodes) && Closed(nodes)
    requires ChildRecords(cs, k, nodes, fuel).None?
    ensures ChildRecords(cs, k', nodes, fuel).None?
    decreases k' - k
  {
    if k < k' {
      ChildRecordsFailureSticks(cs, k, k' - 1, nodes, fuel);
    }
  }

  /** A child whose record fails makes all the children's records fail. */
  lemma {:induction false} ChildFailureFailsAll(cs: seq<SceneComponent>, i: nat, nodes: set<SceneComponent>, fuel: nat)
    requires i < |cs| && (forall x :: x in cs ==> x in nodes) && Closed(nodes)
    requires Record(cs[i], nodes, fuel).None?
    ensures ChildRecords(cs, |cs|, nodes, fuel).None?
  {
    if ChildRecords(cs, i, nodes, fuel).None? {
      ChildRecordsFailureSticks(cs, i, |cs|, nodes, fuel);
    } else {
      assert ChildRecords(cs, i + 1, nodes, fuel).None?;
      ChildRecordsFailureSticks(cs, i + 1, |cs|, nodes, fuel);
    }
  }

  /** A component's record: its own class, id and transform, its parent's id or 0, and the
      records of exactly its children, in order. */
  lemma {:induction false} RecordOfComponent(c: SceneComponent, nodes: set<SceneComponent>, fuel: nat)
    requires c in nodes && Closed(nodes) && Record(c, nodes, fuel).Some?
    ensures var r := Record(c, nodes, fuel).value;
      && r.cls == c.cls && r.id == c.id && r.transform == c.LocalTransform() && r.modelPath == c.modelPath
      && r.parentId == (if c.parent == null then 0 else c.parent.id)
      && |r.children| == |c.children|
      && (forall i :: 0 <= i < |c.children| ==>
            (Record(c.children[i], nodes, fuel - 1).Some? && r.children[i] == Record(c.children[i], nodes, fuel - 1).value))
  {
    ChildRecordsAt(c.children, |c.children|, nodes, fuel - 1);
  }

  /** The keys JComponent::Serialize and JTransformComponent::SerializeProperties write before
      the children: type, id, the transform object and children_count. */
  function OwnFields(cls: ClassName, id: nat, t: Transform, childCount: nat): map<string, Json>
  {
    map["type" := EncodeString(TypeName(cls)), "id" := EncodeInt(id),
        "transform" := TransformObject(t), "children_count" := EncodeInt(childCount)]
  }

  /** The keys written after the children, on top of what is there: parent_id, and model_path
      for a model component. */
  function LinkFields(cls: ClassName, parentId: nat, modelPath: string, m: map<string, Json>): map<string, Json>
  {
    var linked := m["parent_id" := EncodeInt(parentId)];
    if cls == JModelComponentClass then linked["model_path" := EncodeString(modelPath)] else linked
  }

  /** The record laid out as the object Serialize writes. */
  function ToJson(r: ComponentRecord): Json
    decreases r, 2
  {
    JObj(Fields(r))
  }

  /** Its keys, in the order they are written. */
  function Fields(r: ComponentRecord): map<string, Json>
    decreases r, 1
  {
    LinkFields(r.cls, r.parentId, r.modelPath,
               OwnFields(r.cls, r.id, r.transform, |r.children|) + ChildMap(r.children, |r.children|))
  }

  /** The first k records laid out and stored under child_0 .. child_(k-1), one after the other. */
  function ChildMap(recs: seq<ComponentRecord>, k: nat): map<string, Json>
    requires k <= |recs|
    decreases recs, k
  {
    if k == 0 then map[] else ChildMap(recs, k - 1)[ChildKey(k - 1) := ToJson(recs[k - 1])]
  }

  /** The child map is keyed child_0 .. child_(k-1), and child_i holds the i-th record's object. */
  lemma {:induction false} ChildMapAt(recs: seq<ComponentRecord>, k: nat)
    requires k <= |recs|
    ensures ChildMap(recs, k).Keys == ChildKeys(k)
    ensures forall i :: 0 <= i < k ==> ChildMap(recs, k)[ChildKey(i)] == ToJson(recs[i])
  {
    if k > 0 {
      ChildMapAt(recs, k - 1);
      forall i | 0 <= i < k - 1
        ensures ChildMap(recs, k)[ChildKey(i)] == ToJson(recs[i])
      {
        if ChildKey(i) == ChildKey(k - 1) {
          ChildKeyInjective(i, k - 1);
        }
      }
    }
  }

  /** The child map only looks at the first k records. */
  lemma {:induction false} ChildMapPrefix(a: seq<ComponentRecord>, b: seq<ComponentRecord>, k: nat)
    requires k <= |a| && k <= |b| && a[..k] == b[..k]
    ensures ChildMap(a, k) == ChildMap(b, k)
  {
    if k > 0 {
      assert a[k - 1] == a[..k][k - 1] == b[..k][k - 1] == b[k - 1];
      assert a[..k - 1] == a[..k][..k - 1] == b[..k][..k - 1] == b[..k - 1];
      ChildMapPrefix(a, b, k - 1);
    }
  }

  /** The keys child_0 .. child_(n-1). */
  function ChildKeys(n: nat): (keys: set<string>)
    ensures forall i :: 0 <= i < n ==> ChildKey(i) in keys
  {
    if n == 0 then {} else ChildKeys(n - 1) + {ChildKey(n - 1)}
  }

  /** Every key in ChildKeys(n) is some child_i with i < n. */
  lemma {:induction false} ChildKeysAreChildKeys(n: nat, k: string)
    requires k in ChildKeys(n)
    ensures exists i :: 0 <= i < n && k == ChildKey(i)
  {
    if k != ChildKey(n - 1) {
      ChildKeysAreChildKeys(n - 1, k);
    }
  }

  /** The serialised shape: the keys are exactly the header, transform and hierarchy keys, the
      children's keys, and model_path for a model component; type and id name the component,
      children_count is the number of children, child_i holds the i-th child's object, and
      parent_id the parent's id. */
  lemma {:induction false} ToJsonShape(r: ComponentRecord)
    ensures ToJson(r).JObj?
    ensures var f := ToJson(r).fields;
      && f.Keys == {"type", "id", "transform", "children_count", "parent_id"}
                   + (if r.cls == JModelComponentClass then {"model_path"} else {})
                   + ChildKeys(|r.children|)
      && AsString(f["type"]) == Some(TypeName(r.cls)) && AsInt(f["id"]) == Some(r.id)
      && f["transform"] == TransformObject(r.transform)
      && AsInt(f["children_count"]) == Some(|r.children|)
      && (forall i :: 0 <= i < |r.children| ==> f[ChildKey(i)] == ToJson(r.children[i]))
      && AsInt(f["parent_id"]) == Some(r.parentId)
      && (r.cls == JModelComponentClass ==> AsString(f["model_path"]) == Some(r.modelPath))
  {
    var n := |r.children|;
    ChildMapAt(r.children, n);
    var entries := ChildMap(r.children, n);
    forall k | k in entries
      ensures k !in FixedKeys
    {
      ChildKeysAreChildKeys(n, k);
      var i :| 0 <= i < n && k == ChildKey(i);
      ChildKeyIsNotFixed(i);
    }
    Layout(r.cls, r.id, r.transform, n, r.parentId, r.modelPath, entries);
    LayoutEntries(r.cls, r.id, r.transform, n, r.parentId, r.modelPath, entries);
    assert ToJson(r).fields == Fields(r);
  }

  /** The fixed keys around entries that do not clash with them: each fixed key holds its
      field. */
  lemma {:induction false} Layout(cls: ClassName, id: nat, t: Transform, n: nat, parentId: nat,
                                  modelPath: string, entries: map<string, Json>)
    requires forall k :: k in entries ==> k !in FixedKeys
    ensures var f := LinkFields(cls, parentId, modelPath, OwnFields(cls, id, t, n) + entries);
      && f.Keys == {"type", "id", "transform", "children_count", "parent_id"}
                   + (if cls == JModelComponentClass then {"model_path"} else {})
                   + entries.Keys
      && AsString(f["type"]) == Some(TypeName(cls)) && AsInt(f["id"]) == Some(id)
      && f["transform"] == TransformObject(t)
      && AsInt(f["children_count"]) == Some(n)
      && AsInt(f["parent_id"]) == Some(parentId)
      && (cls == JModelComponentClass ==> AsString(f["model_path"]) == Some(modelPath))
  {
    assert "type" !in entries && "id" !in entries && "transform" !in entries && "children_count" !in entries;
  }

  /** ... and every entry keeps its value. */
  lemma {:induction false} LayoutEntries(cls: ClassName, id: nat, t: Transform, n: nat, parentId: nat,
                                         modelPath: string, entries: map<string, Json>)
    requires forall k :: k in entries ==> k !in FixedKeys
    ensures var f := LinkFields(cls, parentId, modelPath, OwnFields(cls, id, t, n) + entries);
      forall k :: k in entries ==> k in f && f[k] == entries[k]
  {
    var f := LinkFields(cls, parentId, modelPath, OwnFields(cls, id, t, n) + entries);
    forall k | k in entries
      ensures k in f && f[k] == entries[k]
    {
      assert k !in FixedKeys;
    }
  }

  /** One of the component's children lies in the set. */
  ghost predicate HasChildIn(x: SceneComponent, s: set<SceneComponent>)
    reads x
  {
    exists i :: 0 <= i < |x.children| && x.children[i] in s
  }

  /** On a cycle of children (a set of components each with a child in the set) no record is
      ever produced: Serialize recurses without end there. */
  lemma {:induction false} CycleHasNoRecord(cycle: set<SceneComponent>, c: SceneComponent,
                                           nodes: set<SceneComponent>, fuel: nat)
    requires c in cycle && cycle <= nodes && Closed(nodes)
    requires forall x :: x in cycle ==> HasChildIn(x, cycle)
    ensures Record(c, nodes, fuel) == None
    decreases fuel
  {
    if fuel > 0 {
      var i :| 0 <= i < |c.children| && c.children[i] in cycle;
      CycleHasNoRecord(cycle, c.children[i], nodes, fuel - 1);
      ChildFailureFailsAll(c.children, i, nodes, fuel - 1);
    }
  }

  // ---------------------------------------------------------------------------
  // Deserialisation.
  // ---------------------------------------------------------------------------

  /** The "transform" child GetChild gives: the nested object, or null when the key is absent. */
  function TransformChild(data: Json): Json
  {
    if Contains(data, "transform") then data.fields["transform"] else JNull
  }

  /** The transform after JTransformComponent::DeserializeProperties, and the type_error if a read
      threw. */
  datatype TransformRead = TransformRead(t: Transform, thrown: Option<JsonError>)

  /** Position, rotation and scale are read from the transform child one after another, falling
      back to 0, 0 and 1; a read that throws leaves that field and the later ones as they were. */
  function DeserializeTransform(t: Transform, data: Json): (r: TransformRead)
    ensures var child := TransformChild(data);
      r.thrown == None <==>
        && ReadAs(child, "position", Splat(0.0), AsVec3).Ok?
        && ReadAs(child, "rotation", Splat(0.0), AsVec3).Ok?
        && ReadAs(child, "scale", Splat(1.0), AsVec3).Ok?
    ensures var child := TransformChild(data);
      r.thrown == None ==>
        r.t == Transform(ReadAs(child, "position", Splat(0.0), AsVec3).value,
                         ReadAs(child, "rotation", Splat(0.0), AsVec3).value,
                         ReadAs(child, "scale", Splat(1.0), AsVec3).value)
    ensures ReadAs(TransformChild(data), "position", Splat(0.0), AsVec3).Err? ==> r.t == t
  {
    var child := TransformChild(data);
    match ReadAs(child, "position", Splat(0.0), AsVec3)
    case Err(e) => TransformRead(t, Some(e))
    case Ok(p) =>
      var t1 := t.(position := p);
      match ReadAs(child, "rotation", Splat(0.0), AsVec3)
      case Err(e) => TransformRead(t1, Some(e))
      case Ok(ro) =>
        var t2 := t1.(rotation := ro);
        match ReadAs(child, "scale", Splat(1.0), AsVec3)
        case Err(e) => TransformRead(t2, Some(e))
        case Ok(sc) => TransformRead(t2.(scale := sc), None)
  }

  /** Without a transform object every field takes its default, whatever it was before. */
  lemma DeserializeTransformDefaults(t: Transform, data: Json)
    requires !Contains(data, "transform")
    ensures DeserializeTransform(t, data) == TransformRead(Transform(Splat(0.0), Splat(0.0), Splat(1.0)), None)
  {
    assert TransformChild(data) == JNull;
  }

  /** Round trip: reading back the transform object that was written restores the transform,
      whatever the rest of the object and the transform being overwritten. */
  lemma {:induction false} TransformRoundTrip(before: map<string, Json>, t: Transform, previous: Transform)
    ensures DeserializeTransform(previous, JObj(before["transform" := TransformObject(t)])) == TransformRead(t, None)
  {
    var child := TransformChild(JObj(before["transform" := TransformObject(t)]));
    assert child == TransformObject(t);
    assert Contains(child, "position") && Contains(child, "rotation") && Contains(child, "scale");
  }

  /** What the whole DeserializeProperties chain of a component gives: the transform, the model
      path (only a model component reads it, default ""), and the first type_error thrown. The
      hierarchy keys children_count and parent_id are read as ints after the transform and then
      ignored, so they can only throw. */
  datatype PropertiesRead = PropertiesRead(transform: Transform, modelPath: string, thrown: Option<JsonError>)

  function ReadProperties(cls: ClassName, t: Transform, modelPath: string, data: Json): (r: PropertiesRead)
    ensures r.thrown == None <==>
              && DeserializeTransform(t, data).thrown == None
              && ReadAs(data, "children_count", 0, AsInt).Ok?
              && ReadAs(data, "parent_id", 0, AsInt).Ok?
              && (cls == JModelComponentClass ==> ReadAs(data, "model_path", "", AsString).Ok?)
    ensures r.transform == DeserializeTransform(t, data).t
    ensures r.thrown == None && cls == JModelComponentClass ==> r.modelPath == ReadAs(data, "model_path", "", AsString).value
    ensures cls != JModelComponentClass ==> r.modelPath == modelPath
  {
    var tr := DeserializeTransform(t, data);
    if tr.thrown.Some? then PropertiesRead(tr.t, modelPath, tr.thrown)
    else match ReadAs(data, "children_count", 0, AsInt)
      case Err(e) => PropertiesRead(tr.t, modelPath, Some(e))
      case Ok(_) =>
        match ReadAs(data, "parent_id", 0, AsInt)
        case Err(e) => PropertiesRead(tr.t, modelPath, Some(e))
        case Ok(_) =>
          if cls != JModelComponentClass then PropertiesRead(tr.t, modelPath, None)
          else match ReadAs(data, "model_path", "", AsString)
            case Err(e) => PropertiesRead(tr.t, modelPath, Some(e))
            case Ok(path) => PropertiesRead(tr.t, path, None)
  }

  /** Round trip: deserialising a serialised record restores its transform and, for a model
      component, its model path, without throwing; nothing of the hierarchy is restored. */
  lemma {:induction false} RecordRoundTrip(r: ComponentRecord, previous: Transform, previousPath: string)
    ensures ReadProperties(r.cls, previous, previousPath, ToJson(r))
            == PropertiesRead(r.transform, if r.cls == JModelComponentClass then r.modelPath else previousPath, None)
  {
    ToJsonShape(r);
    var f := ToJson(r).fields;
    assert f == f["transform" := TransformObject(r.transform)];
    TransformRoundTrip(f, r.transform, previous);
    assert Contains(ToJson(r), "children_count") && Contains(ToJson(r), "parent_id");
    if r.cls == JModelComponentClass {
      assert Contains(ToJson(r), "model_path");
    }
  }

  /** Hence, for a component: deserialising what Serialize wrote restores its own transform and
      model path. */
  lemma ComponentRoundTrip(c: SceneComponent, nodes: set<SceneComponent>, fuel: nat,
                           previous: Transform, previousPath: string)
    requires c in nodes && Closed(nodes) && Record(c, nodes, fuel).Some?
    ensures ReadProperties(c.cls, previous, previousPath, ToJson(Record(c, nodes, fuel).value))
            == PropertiesRead(c.LocalTransform(), if c.cls == JModelComponentClass then c.modelPath else previousPath, None)
  {
    RecordOfComponent(c, nodes, fuel);
    RecordRoundTrip(Record(c, nodes, fuel).value, previous, previousPath);
  }

  // ---------------------------------------------------------------------------
  // Model component scenarios.
  // ---------------------------------------------------------------------------

  /** SetModel twice with the same path binds the same cached instance: the second call only
      looks the key up. */
  method SetModelTwice(c: SceneComponent, path: string, rm: ResourceManager)
    returns (first: Resource?, second: Resource?)
    requires c.cls == JModelComponentClass && rm.Valid()
    modifies c`modelPath, c`modelResource, rm, rm.ids
    ensures rm.Valid() && first == second && c.modelResource == second && c.modelPath == path
    ensures path !in old(rm.byKey) ==> first != null && fresh(first) && path in rm.byKey && rm.byKey[path] == first
  {
    c.SetModel(path, rm);
    first := c.modelResource;
    c.SetModel(path, rm);
    second := c.modelResource;
  }

  /** The reference is weak: once the manager unloads the model's key and the manager was its
      only holder, GetModel gives null. */
  method UnloadExpiresModel(c: SceneComponent, rm: ResourceManager) returns (removed: bool)
    requires rm.Valid() && c.modelPath in rm.byKey && c.modelResource == rm.byKey[c.modelPath]
    modifies rm
    ensures rm.Valid() && removed
    ensures c.GetModel(rm.Held()) == null
  {
    ghost var keys0 := rm.byKey;
    removed := rm.Unload(c.modelPath);
    forall k | k in rm.byKey
      ensures rm.byKey[k] != c.modelResource
    {
      assert k in keys0 && k != c.modelPath;
      assert keys0[k].id != keys0[c.modelPath].id;
    }
  }
}

=== FILE: core_object.dfy ===
/** JCoreObject: the static type name every engine class declares through the
    type-name macro, and the single global counter that gives every constructed
    engine object its id. */
module CoreObject {

  /** The engine classes that declare their type name with the macro. */
  datatype ClassName =
    | JActorClass
    | JComponentClass
    | JTransformComponentClass
    | JSceneComponentClass
    | JModelComponentClass
    | JModelResourceClass
    | JMeshAssetClass
    | JTextureAssetClass

  /** The string the macro stringises from the class name. Both StaticTypeName() and the
      virtual GetClassTypeName() return this string, so they agree for every class. */
  function TypeName(c: ClassName): string
  {
    match c
    case JActorClass => "JActor"
    case JComponentClass => "JComponent"
    case JTransformComponentClass => "JTransformComponent"
    case JSceneComponentClass => "JSceneComponent"
    case JModelComponentClass => "JModelComponent"
    case JModelResourceClass => "JModelResource"
    case JMeshAssetClass => "JMeshAsset"
    case JTextureAssetClass => "JTextureAsset"
  }

  /** The type name identifies the class: two different classes never report the same name,
      so the name written under "type" or "Type" tells the class apart. */
  lemma TypeNameIdentifiesClass(a: ClassName, b: ClassName)
    requires TypeName(a) == TypeName(b)
    ensures a == b
  {
  }

  /** The ids handed out by the first n constructions, in order: 1, 2, ..., n. */
  function IssuedIds(n: nat): (s: seq<nat>)
    ensures |s| == n
  {
    if n == 0 then [] else IssuedIds(n - 1) + [n]
  }

  /** The k-th construction receives id k + 1. */
  lemma {:induction false} IssuedIdAt(n: nat, k: nat)
    requires k < n
    ensures IssuedIds(n)[k] == k + 1
  {
    if k < n - 1 {
      IssuedIdAt(n - 1, k);
    }
  }

  /** Ids strictly increase in construction order, hence no two constructions share one. */
  lemma IssuedIdsStrictlyIncrease(n: nat)
    ensures forall i :: 0 <= i < n ==> 0 < IssuedIds(n)[i] <= n
    ensures forall i, j :: 0 <= i < j < n ==> IssuedIds(n)[i] < IssuedIds(n)[j]
  {
    forall i | 0 <= i < n
      ensures IssuedIds(n)[i] == i + 1
    {
      IssuedIdAt(n, i);
    }
  }

  /** The global id counter s_NextID. It starts at 0 and is only ever pre-incremented. */
  class ObjectIdCounter {
    /** s_NextID: the id most recently handed out (0 before the first construction). */
    var lastId: nat
    /** Every id handed out so far, in construction order. */
    ghost var issued: seq<nat>

    ghost predicate Valid()
      reads this
    {
      issued == IssuedIds(lastId)
    }

    constructor ()
      ensures Valid() && lastId == 0 && issued == []
    {
      lastId := 0;
      issued := [];
    }

    /** The JCoreObject constructor's m_ID(++s_NextID): the new id is one more than the last,
        larger than every id handed out before, so never a reused one. */
    method NewId() returns (id: nat)
      requires Valid()
      modifies this
      ensures Valid()
      ensures id == old(lastId) + 1 && lastId == id
      ensures issued == old(issued) + [id]
      ensures forall k :: 0 <= k < |old(issued)| ==> old(issued)[k] < id
    {
      IssuedIdsStrictlyIncrease(lastId);
      lastId := lastId + 1;
      id := lastId;
      issued := issued + [id];
    }
  }
}

=== FILE: geometry.dfy ===
/** The glm values the object model stores: three-component vectors and, for
    hierarchy composition, matrices kept symbolic (the floating-point product
    itself is not part of this model). */
module Geometry {

  /** glm::vec3, with float components read as reals. */
  datatype Vec3 = Vec3(x: real, y: real, z: real)

  /** glm::vec3{v}: every component equal to v. */
  function Splat(v: real): (r: Vec3)
    ensures r.x == v && r.y == v && r.z == v
  {
    Vec3(v, v, v)
  }

  /** A local transform: position, Euler rotation (radians, applied as yaw-pitch-roll) and scale. */
  datatype Transform = Transform(position: Vec3, rotation: Vec3, scale: Vec3)

  /** A 4x4 matrix, kept as the expression that produced it:
      Local(t) is T * R * S of a local transform, Mul(a, b) is the product a * b. */
  datatype Mat = Local(t: Transform) | Mul(left: Mat, right: Mat)
}

=== FILE: json.dfy ===
/** The JSON layer the engine serialises through: a JSON value as nlohmann::json
    holds it, the typed conversions of json::get<T>() and json::value(), the
    const JsonReader::Read with its default, and JsonWriter, which assigns keys
    into the object it owns. */
module Json {
  import opened Wrappers
  import opened Geometry

  /** A JSON value. Integers and floating-point numbers are kept apart, as nlohmann::json keeps them. */
  datatype Json =
    | JNull
    | JBool(b: bool)
    | JInt(i: int)
    | JNum(r: real)
    | JStr(s: string)
    | JArr(items: seq<Json>)
    | JObj(fields: map<string, Json>)

  /** nlohmann::json::type_error, thrown when a stored value has the wrong type for the
      requested conversion, or when value() is called on something that is not an object;
      and parse_error, thrown when a stream does not hold a JSON document. */
  datatype JsonError = TypeError(key: string) | ParseError

  /** The outcome of a read: the value, or the type_error the read throws. */
  datatype Result<+T> = Ok(value: T) | Err(error: JsonError)

  // ---------------------------------------------------------------------------
  // Conversions into JSON (to_json) and back out of it (get<T>()).
  // ---------------------------------------------------------------------------

  /** Truncation toward zero, as static_cast from a floating-point number to an integer does. */
  function TruncateToward0(r: real): (i: int)
    ensures r >= 0.0 ==> i as real <= r < i as real + 1.0
    ensures r < 0.0 ==> i as real - 1.0 < r <= i as real
  {
    if r >= 0.0 then r.Floor else -((-r).Floor)
  }

  /** get<bool>(): only a boolean converts. */
  function AsBool(j: Json): (r: Option<bool>)
    ensures r.Some? <==> j.JBool?
    ensures r.Some? ==> r.value == j.b
  {
    if j.JBool? then Some(j.b) else None
  }

  /** get<int>() and other integer types: any number or boolean converts (floats truncate). */
  function AsInt(j: Json): (r: Option<int>)
    ensures r.Some? <==> (j.JInt? || j.JNum? || j.JBool?)
    ensures j.JInt? ==> r == Some(j.i)
    ensures j.JNum? ==> r == Some(TruncateToward0(j.r))
    ensures j.JBool? ==> r == Some(if j.b then 1 else 0)
  {
    match j
    case JInt(i) => Some(i)
    case JNum(r) => Some(TruncateToward0(r))
    case JBool(b) => Some(if b then 1 else 0)
    case _ => None
  }

  /** get<float>(): any number or boolean converts. */
  function AsReal(j: Json): (r: Option<real>)
    ensures r.Some? <==> (j.JInt? || j.JNum? || j.JBool?)
    ensures j.JNum? ==> r == Some(j.r)
    ensures j.JInt? ==> r == Some(j.i as real)
  {
    match j
    case JNum(r) => Some(r)
    case JInt(i) => Some(i as real)
    case JBool(b) => Some(if b then 1.0 else 0.0)
    case _ => None
  }

  /** get<std::string>(): only a string converts. */
  function AsString(j: Json): (r: Option<string>)
    ensures r.Some? <==> j.JStr?
    ensures r.Some? ==> r.value == j.s
  {
    if j.JStr? then Some(j.s) else None
  }

  /** get<glm::vec3>(): a three-element array of numbers, in the order x, y, z. */
  function AsVec3(j: Json): (r: Option<Vec3>)
    ensures r.Some? <==> (j.JArr? && |j.items| == 3 && forall k :: 0 <= k < 3 ==> AsReal(j.items[k]).Some?)
    ensures r.Some? ==> r.value == Vec3(AsReal(j.items[0]).value, AsReal(j.items[1]).value, AsReal(j.items[2]).value)
  {
    if j.JArr? && |j.items| == 3 then
      match (AsReal(j.items[0]), AsReal(j.items[1]), AsReal(j.items[2]))
      case (Some(x), Some(y), Some(z)) => Some(Vec3(x, y, z))
      case _ => None
    else None
  }

  /** to_json of a bool, which get<bool>() reads back. */
  function EncodeBool(b: bool): (j: Json)
    ensures AsBool(j) == Some(b)
  {
    JBool(b)
  }

  /** to_json of an integer, which get<int>() reads back. */
  function EncodeInt(i: int): (j: Json)
    ensures AsInt(j) == Some(i)
  {
    JInt(i)
  }

  /** to_json of a float, which get<float>() reads back. */
  function EncodeReal(r: real): (j: Json)
    ensures AsReal(j) == Some(r)
  {
    JNum(r)
  }

  /** to_json of a string, which get<std::string>() reads back. */
  function EncodeString(s: string): (j: Json)
    ensures AsString(j) == Some(s)
  {
    JStr(s)
  }

  /** The array [x, y, z] that JsonWriter::WriteVec3 stores, which get<glm::vec3>() reads back. */
  function EncodeVec3(v: Vec3): (j: Json)
    ensures j.JArr? && |j.items| == 3
    ensures AsReal(j.items[0]) == Some(v.x) && AsReal(j.items[1]) == Some(v.y) && AsReal(j.items[2]) == Some(v.z)
    ensures AsVec3(j) == Some(v)
  {
    JArr([JNum(v.x), JNum(v.y), JNum(v.z)])
  }

  // ---------------------------------------------------------------------------
  // Reading.
  // ---------------------------------------------------------------------------

  /** json::contains(key): true only for an object that has the key. */
  predicate Contains(data: Json, key: string)
  {
    data.JObj? && key in data.fields
  }

  /** The fields of an object; nothing for any other value. */
  function FieldsOf(data: Json): map<string, Json>
  {
    if data.JObj? then data.fields else map[]
  }

  /** JsonReader::Read<T>(key, default): the stored value converted to T when the key is
      present (a wrong type throws), otherwise the default. A const read: it returns a value
      and changes nothing. */
  function ReadAs<T>(data: Json, key: string, default: T, decode: Json -> Option<T>): (r: Result<T>)
  {
    if Contains(data, key) then
      match decode(data.fields[key])
      case Some(v) => Ok(v)
      case None => Err(TypeError(key))
    else Ok(default)
  }

  /** json::value(key, default): like ReadAs on an object, but a type_error on anything that is not one. */
  function ValueOr<T>(data: Json, key: string, default: T, decode: Json -> Option<T>): (r: Result<T>)
    ensures !data.JObj? ==> r.Err?
    ensures data.JObj? ==> r == ReadAs(data, key, default, decode)
  {
    if data.JObj? then ReadAs(data, key, default, decode) else Err(TypeError(key))
  }

  /** Read returns the stored value when the key is present and the default when it is absent;
      with no default argument the default is T(), e.g. "" for a string. */
  lemma ReadPresentOrDefault<T>(data: Json, key: string, default: T, decode: Json -> Option<T>)
    ensures Contains(data, key) && decode(data.fields[key]).Some? ==>
              ReadAs(data, key, default, decode) == Ok(decode(data.fields[key]).value)
    ensures !Contains(data, key) ==> ReadAs(data, key, default, decode) == Ok(default)
    ensures !Contains(data, key) ==> ReadAs(data, key, "", AsString) == Ok("")
  {
  }

  /** A reader over written data returns v for the key just written, whatever the default,
      whenever decoding the encoded value gives it back. */
  lemma {:induction false} ReadAfterWrite<T>(fields: map<string, Json>, key: string, v: T, default: T,
                                             encode: T -> Json, decode: Json -> Option<T>)
    requires decode(encode(v)) == Some(v)
    ensures ReadAs(JObj(fields[key := encode(v)]), key, default, decode) == Ok(v)
  {
    var data := JObj(fields[key := encode(v)]);
    assert Contains(data, key);
    assert data.fields[key] == encode(v);
  }

  /** Writing one key does not change what any other key reads. */
  lemma {:induction false} WriteLeavesOtherKeys<T>(fields: map<string, Json>, key: string, value: Json,
                                                   other: string, default: T, decode: Json -> Option<T>)
    requires other != key
    ensures ReadAs(JObj(fields[key := value]), other, default, decode) == ReadAs(JObj(fields), other, default, decode)
  {
    assert Contains(JObj(fields[key := value]), other) == Contains(JObj(fields), other);
  }

  // ---------------------------------------------------------------------------
  // Writing.
  // ---------------------------------------------------------------------------

  /** JsonWriter: owns one nlohmann::json, null until the first write or BeginObject. */
  class JsonWriter {
    var data: Json

    /** The writer's data is only ever null or an object: its API assigns keys and nothing else. */
    ghost predicate Valid()
      reads this
    {
      data.JNull? || data.JObj?
    }

    /** The keys written so far (none while the data is still null). */
    function Fields(): map<string, Json>
      reads this
    {
      FieldsOf(data)
    }

    constructor ()
      ensures Valid() && data == JNull
    {
      data := JNull;
    }

    /** BeginObject: reset to an empty object, whatever was written before. */
    method BeginObject()
      modifies this
      ensures Valid() && data == JObj(map[])
    {
      data := JObj(map[]);
    }

    /** Write(key, value): set key to value, overwriting an earlier value; every other key stays.
        On null data the assignment first turns the data into an object. */
    method Write(key: string, value: Json)
      requires Valid()
      modifies this
      ensures Valid() && data == JObj(old(Fields())[key := value])
      ensures forall k :: k in old(Fields()) && k != key ==> k in Fields() && Fields()[k] == old(Fields())[k]
    {
      data := JObj(Fields()[key := value]);
    }

    /** WriteVec3(key, v): store the array [x, y, z] under key. */
    method WriteVec3(key: string, v: Vec3)
      requires Valid()
      modifies this
      ensures Valid() && data == JObj(old(Fields())[key := EncodeVec3(v)])
      ensures AsVec3(Fields()[key]) == Some(v)
    {
      data := JObj(Fields()[key := JArr([JNum(v.x), JNum(v.y), JNum(v.z)])]);
    }

    /** GetData: the JSON written so far. */
    function GetData(): Json
      reads this
    {
      data
    }
  }
}

=== FILE: path_finder.dfy ===
/** UPathFinder: the path queries, on generic-format paths with '/' as the only separator and
    no root name, decomposed as section [fs.path.decompose] of ISO/IEC 14882:2017 (C++17)
    describes; and the directory listings, over the entries the directory iterator yields. */
module PathFinder {
  import opened Text

  /** All characters are separators: the empty path, or a root directory alone. Such a path
      has no relative part. */
  predicate AllSeparators(p: string)
  {
    forall j :: 0 <= j < |p| ==> p[j] == '/'
  }

  /** Where the last element starts: just past the last separator, 0 when there is none. */
  function FileNameStart(p: string): (i: nat)
    ensures i <= |p|
    ensures i > 0 ==> p[i - 1] == '/'
    ensures forall j :: i <= j < |p| ==> p[j] != '/'
  {
    if p == [] then 0
    else if p[|p| - 1] == '/' then |p|
    else FileNameStart(p[..|p| - 1])
  }

  /** path::filename(): the last element; empty when the path ends with a separator. */
  function FileName(p: string): (f: string)
    ensures |f| <= |p| && forall j :: 0 <= j < |f| ==> f[j] == p[|p| - |f| + j]
    ensures forall j :: 0 <= j < |f| ==> f[j] != '/'
    ensures |f| < |p| ==> p[|p| - |f| - 1] == '/'
  {
    p[FileNameStart(p)..]
  }

  /** Where the rightmost period of f is, or |f| when it has none. */
  function LastDot(f: string): (d: nat)
    ensures d <= |f|
    ensures d < |f| ==> f[d] == '.'
    ensures forall j :: d < j < |f| ==> f[j] != '.'
    ensures d == |f| ==> forall j :: 0 <= j < |f| ==> f[j] != '.'
  {
    if f == [] then 0
    else if f[|f| - 1] == '.' then |f| - 1
    else var d := LastDot(f[..|f| - 1]); if d == |f| - 1 then |f| else d
  }

  /** The filename has an extension: it contains a period, is neither "." nor "..", and its
      only period is not the leading one of a dot-file such as ".profile". */
  predicate HasExtension(f: string)
  {
    f != "." && f != ".." && 0 < LastDot(f) < |f|
  }

  /** path::extension(): from the rightmost period of the filename on, or empty. */
  function Extension(p: string): (e: string)
    ensures e == "" <==> !HasExtension(FileName(p))
    ensures e != "" ==> e[0] == '.' && forall j :: 1 <= j < |e| ==> e[j] != '.'
  {
    var f := FileName(p);
    if HasExtension(f) then f[LastDot(f)..] else ""
  }

  /** path::stem(): the filename without its extension; the filename decomposes into the two. */
  function Stem(p: string): (s: string)
    ensures s + Extension(p) == FileName(p)
  {
    var f := FileName(p);
    var e := Extension(p);
    if HasExtension(f) then
      var d := LastDot(f);
      assert e == f[d..];
      assert f[..d] + f[d..] == f;
      f[..d]
    else f
  }

  /** GetFileName(path, bIncludeExtension): the filename, or the stem without the extension. */
  function GetFileName(p: string, includeExtension: bool): (r: string)
    ensures includeExtension ==> r == FileName(p)
    ensures !includeExtension ==> r + Extension(p) == FileName(p)
  {
    if includeExtension then FileName(p) else Stem(p)
  }

  /** GetExtension(path): the extension with its period removed; "" when there is none. */
  function GetExtension(p: string): (r: string)
    ensures Extension(p) == "" ==> r == ""
    ensures Extension(p) != "" ==> Extension(p) == "." + r
  {
    var e := Extension(p);
    if e != [] && e[0] == '.' then e[1..] else e
  }

  /** The path without its trailing separators, unless it is nothing but separators. */
  function TrimSeparators(q: string): (r: string)
    ensures |r| <= |q| && r == q[..|r|]
    ensures AllSeparators(q[|r|..])
    ensures r == "" || r[|r| - 1] != '/' || AllSeparators(r)
    ensures AllSeparators(r) ==> r == q
  {
    if q == [] || AllSeparators(q) then q
    else if q[|q| - 1] == '/' then TrimSeparators(q[..|q| - 1])
    else q
  }

  /** path::parent_path(), which GetParent returns: the path as it is when it has no relative
      part, otherwise the path with its last element and the separators before it removed
      (a root directory stays). */
  function ParentPath(p: string): (r: string)
    ensures AllSeparators(p) ==> r == p
    ensures !AllSeparators(p) ==> |r| < |p| && r == p[..|r|]
    ensures !AllSeparators(p) ==> |r| + |FileName(p)| <= |p| && AllSeparators(p[|r|..|p| - |FileName(p)|])
    ensures r == "" || r[|r| - 1] != '/' || AllSeparators(r)
  {
    if AllSeparators(p) then p else TrimSeparators(p[..FileNameStart(p)])
  }

  /** A directory and a name joined with one separator decompose back into the two: the name
      is the filename and the directory the parent path. */
  lemma {:induction false} JoinDecomposes(dir: string, name: string)
    requires name != "" && forall j :: 0 <= j < |name| ==> name[j] != '/'
    requires dir != "" && dir[|dir| - 1] != '/'
    ensures FileName(dir + "/" + name) == name
    ensures ParentPath(dir + "/" + name) == dir
  {
    var p := dir + "/" + name;
    FileNameStartOfJoin(dir + "/", name);
    assert !AllSeparators(p) by {
      assert p[|p| - 1] == name[|name| - 1];
    }
    assert p[..|dir| + 1] == dir + "/";
    assert (dir + "/")[..|dir|] == dir;
  }

  /** The last element of a path ending with a separator followed by a separator-free name
      starts right after that separator. */
  lemma {:induction false} FileNameStartOfJoin(prefix: string, name: string)
    requires prefix != "" && prefix[|prefix| - 1] == '/'
    requires forall j :: 0 <= j < |name| ==> name[j] != '/'
    ensures FileNameStart(prefix + name) == |prefix|
  {
    if name != [] {
      assert (prefix + name)[..|prefix + name| - 1] == prefix + name[..|name| - 1];
      FileNameStartOfJoin(prefix, name[..|name| - 1]);
    } else {
      assert prefix + name == prefix;
    }
  }

  /** What the directory iterator reports about an entry: is_regular_file, is_directory, or
      neither (a symlink to nowhere, a socket, ...). */
  datatype EntryKind = RegularFile | Directory | Other

  datatype Entry = Entry(path: string, kind: EntryKind)

  /** A directory as the listings see it: Missing when DirectoryExists is false; otherwise the
      entries directory_iterator yields and those recursive_directory_iterator yields, in their
      iteration order. */
  datatype Listing = Missing | Listing(entries: seq<Entry>, recursiveEntries: seq<Entry>)

  /** The iterator the flag selects. */
  function Walk(dir: Listing, recursive: bool): (es: seq<Entry>)
    requires dir.Listing?
    ensures recursive ==> es == dir.recursiveEntries
    ensures !recursive ==> es == dir.entries
  {
    if recursive then dir.recursiveEntries else dir.entries
  }

  /** The test ListFiles applies to one entry: a regular file, and, for a non-empty filter,
      an extension (period included) equal to it, compared lowercased when asked to. */
  predicate Keeps(e: Entry, extension: string, caseInsensitive: bool)
  {
    && e.kind == RegularFile
    && (extension == ""
        || (if caseInsensitive then ToLower(Extension(e.path)) == ToLower(extension)
            else Extension(e.path) == extension))
  }

  /** The paths of the entries that pass the test, in iteration order. */
  function FilterFiles(entries: seq<Entry>, extension: string, caseInsensitive: bool): (files: seq<string>)
    ensures |files| <= |entries|
  {
    if entries == [] then []
    else
      var last := entries[|entries| - 1];
      FilterFiles(entries[..|entries| - 1], extension, caseInsensitive)
        + (if Keeps(last, extension, caseInsensitive) then [last.path] else [])
  }

  /** ListFiles as written: nothing for a missing directory, else one push_back per entry that
      passes the test. */
  method ListFilesAsWritten(dir: Listing, extension: string, recursive: bool, caseInsensitive: bool)
    returns (files: seq<string>)
    ensures dir.Missing? ==> files == []
    ensures dir.Listing? ==> files == FilterFiles(Walk(dir, recursive), extension, caseInsensitive)
  {
    files := [];
    if dir.Missing? {
      return;
    }
    var entries := if recursive then dir.recursiveEntries else dir.entries;
    for i := 0 to |entries|
      invariant files == FilterFiles(entries[..i], extension, caseInsensitive)
    {
      var entry := entries[i];
      assert entries[..i + 1][..i] == entries[..i];
      assert FilterFiles(entries[..i + 1], extension, caseInsensitive)
             == files + (if Keeps(entry, extension, caseInsensitive) then [entry.path] else []);
      if entry.kind != RegularFile {
        continue;
      }
      if extension == [] {
        files := files + [entry.path];
        continue;
      }
      var fileExt := Extension(entry.path);
      if caseInsensitive {
        if ToLower(fileExt) == ToLower(extension) {
          files := files + [entry.path];
        }
      } else {
        if fileExt == extension {
          files := files + [entry.path];
        }
      }
    }
    assert entries[..|entries|] == entries;
  }

  /** A path is listed exactly when some entry with that path passes the test: only regular
      files, and every one of them that matches. */
  lemma {:induction false} FilterFilesMembers(entries: seq<Entry>, extension: string, caseInsensitive: bool, x: string)
    ensures x in FilterFiles(entries, extension, caseInsensitive)
            <==> exists e :: e in entries && e.path == x && Keeps(e, extension, caseInsensitive)
  {
    if entries != [] {
      var init := entries[..|entries| - 1];
      var last := entries[|entries| - 1];
      FilterFilesMembers(init, extension, caseInsensitive, x);
      assert entries == init + [last];
      if x in FilterFiles(entries, extension, caseInsensitive) {
        if x !in FilterFiles(init, extension, caseInsensitive) {
          assert last in entries && last.path == x && Keeps(last, extension, caseInsensitive);
        }
      }
      if exists e :: e in entries && e.path == x && Keeps(e, extension, caseInsensitive) {
        var e :| e in entries && e.path == x && Keeps(e, extension, caseInsensitive);
        if e != last {
          assert e in init;
        }
      }
    }
  }

  /** The paths of the regular files, in iteration order. */
  function RegularFiles(entries: seq<Entry>): seq<string>
  {
    if entries == [] then []
    else
      var last := entries[|entries| - 1];
      RegularFiles(entries[..|entries| - 1]) + (if last.kind == RegularFile then [last.path] else [])
  }

  /** An empty filter keeps every regular file and nothing else, in order. */
  lemma {:induction false} EmptyFilterKeepsRegularFiles(entries: seq<Entry>, caseInsensitive: bool)
    ensures FilterFiles(entries, "", caseInsensitive) == RegularFiles(entries)
  {
    if entries != [] {
      EmptyFilterKeepsRegularFiles(entries[..|entries| - 1], caseInsensitive);
    }
  }

  /** Lowercasing keeps a leading period and puts none where there was none. */
  lemma LowerKeepsPeriod(s: string)
    requires s != ""
    ensures ToLower(s)[0] == '.' <==> s[0] == '.'
  {
  }

  /** As written, a non-empty filter without a leading period (the "png" form) matches no
      file, since every extension starts with its period. */
  lemma {:induction false} DotlessFilterMatchesNothing(entries: seq<Entry>, extension: string, caseInsensitive: bool)
    requires extension != "" && extension[0] != '.'
    ensures FilterFiles(entries, extension, caseInsensitive) == []
  {
    if entries != [] {
      DotlessFilterMatchesNothing(entries[..|entries| - 1], extension, caseInsensitive);
      var e := Extension(entries[|entries| - 1].path);
      LowerKeepsPeriod(extension);
      if e != "" {
        LowerKeepsPeriod(e);
      }
      assert !Keeps(entries[|entries| - 1], extension, caseInsensitive);
    }
  }

  /** The filter with its period: a dot-less filter gets one, any other is kept. */
  function DottedFilter(extension: string): (f: string)
    ensures extension == "" || extension[0] == '.' ==> f == extension
    ensures extension != "" && extension[0] != '.' ==> f == "." + extension
  {
    if extension != "" && extension[0] != '.' then "." + extension else extension
  }

  /** ListFiles taking the filter with or without its period, as its documentation describes
      ("png"): the as-written listing of the dotted filter. */
  method ListFiles(dir: Listing, extension: string, recursive: bool, caseInsensitive: bool)
    returns (files: seq<string>)
    ensures dir.Missing? ==> files == []
    ensures dir.Listing? ==> files == FilterFiles(Walk(dir, recursive), DottedFilter(extension), caseInsensitive)
  {
    files := ListFilesAsWritten(dir, DottedFilter(extension), recursive, caseInsensitive);
  }

  /** With the dotted filter, a dot-less filter keeps exactly the regular files whose extension
      without its period (GetExtension) equals it, lowercased when asked to. */
  lemma {:induction false} DottedFilterMatchesGetExtension(e: Entry, extension: string, caseInsensitive: bool)
    requires extension != "" && extension[0] != '.'
    ensures Keeps(e, DottedFilter(extension), caseInsensitive)
            <==> && e.kind == RegularFile
                 && (if caseInsensitive then ToLower(GetExtension(e.path)) == ToLower(extension)
                     else GetExtension(e.path) == extension)
  {
    var ext := Extension(e.path);
    var g := GetExtension(e.path);
    LowerOfDotted(extension);
    if ext != "" {
      LowerOfDotted(g);
    }
    if caseInsensitive && e.kind == RegularFile {
      if ToLower(ext) == ToLower("." + extension) {
        assert |ext| >= 2;
        assert ToLower(g) == ToLower(ext)[1..];
      }
    }
  }

  /** Lowercasing a dotted string lowercases what follows the period. */
  lemma LowerOfDotted(s: string)
    ensures ToLower("." + s) == "." + ToLower(s)
  {
    assert ("." + s)[0] == '.';
    assert forall i :: 1 <= i < |s| + 1 ==> ("." + s)[i] == s[i - 1];
  }

  /** The entries ListDirectories keeps: those is_directory reports. */
  function Directories(entries: seq<Entry>): (dirs: seq<string>)
    ensures |dirs| <= |entries|
  {
    if entries == [] then []
    else
      var last := entries[|entries| - 1];
      Directories(entries[..|entries| - 1]) + (if last.kind == Directory then [last.path] else [])
  }

  /** ListDirectories: nothing for a missing directory, else one push_back per directory entry. */
  method ListDirectories(dir: Listing, recursive: bool) returns (dirs: seq<string>)
    ensures dir.Missing? ==> dirs == []
    ensures dir.Listing? ==> dirs == Directories(Walk(dir, recursive))
  {
    dirs := [];
    if dir.Missing? {
      return;
    }
    var entries := if recursive then dir.recursiveEntries else dir.entries;
    for i := 0 to |entries|
      invariant dirs == Directories(entries[..i])
    {
      assert entries[..i + 1][..i] == entries[..i];
      if entries[i].kind == Directory {
        dirs := dirs + [entries[i].path];
      }
    }
    assert entries[..|entries|] == entries;
  }

  /** A path is listed exactly when some directory entry has it. */
  lemma {:induction false} DirectoriesMembers(entries: seq<Entry>, x: string)
    ensures x in Directories(entries) <==> exists e :: e in entries && e.path == x && e.kind == Directory
  {
    if entries != [] {
      var init := entries[..|entries| - 1];
      var last := entries[|entries| - 1];
      DirectoriesMembers(init, x);
      assert entries == init + [last];
      if exists e :: e in entries && e.path == x && e.kind == Directory {
        var e :| e in entries && e.path == x && e.kind == Directory;
        if e != last {
          assert e in init;
        }
      }
    }
  }
}

=== FILE: resources.dfy ===
/** The keyed resource cache (JResourceManager) and the one resource class the
    core loads through it (JModelResource). The cache maps string keys and object
    ids to shared resource instances; Load is get-or-create. */
module Resources {
  import opened Wrappers
  import opened Json
  import opened CoreObject

  /** The JModel a model resource wraps, identified by the file it was loaded from
      (the mesh import itself is not part of this model). */
  datatype LoadedModel = LoadedModel(sourcePath: string)

  /** The metadata JModelResource::Serialize writes: the type name, the object id and the path. */
  function Metadata(cls: ClassName, id: nat, path: string): (m: map<string, Json>)
    ensures m.Keys == {"Type", "ID", "Path"}
    ensures AsString(m["Type"]) == Some(TypeName(cls))
    ensures AsInt(m["ID"]) == Some(id)
    ensures AsString(m["Path"]) == Some(path)
  {
    map["Type" := EncodeString(TypeName(cls)), "ID" := EncodeInt(id), "Path" := EncodeString(path)]
  }

  /** Reading back serialised metadata gives the path that was written, over whatever keys the
      writer held before. */
  lemma {:induction false} MetadataPathRoundTrip(before: map<string, Json>, cls: ClassName, id: nat, path: string)
    ensures ReadAs(JObj(before + Metadata(cls, id, path)), "Path", "", AsString) == Ok(path)
  {
    var data := JObj(before + Metadata(cls, id, path));
    assert Contains(data, "Path") && data.fields["Path"] == JStr(path);
  }

  /** A JCoreObject held by the cache. Its class is recorded so that a typed Load can fail its
      cast. The path and model fields are JModelResource's; the constructor argument of every
      resource class is taken to be its asset path. */
  class Resource {
    const id: nat
    const cls: ClassName
    var path: string
    var model: Option<LoadedModel>

    /** JModelResource(InPath): record the path and load the model from it. */
    constructor (id: nat, cls: ClassName, inPath: string)
      ensures this.id == id && this.cls == cls && path == inPath
      ensures model == (if cls == JModelResourceClass then Some(LoadedModel(inPath)) else None)
    {
      this.id := id;
      this.cls := cls;
      path := inPath;
      model := if cls == JModelResourceClass then Some(LoadedModel(inPath)) else None;
    }

    /** GetModel(): the wrapped model. */
    function GetModel(): Option<LoadedModel>
      reads this
    {
      model
    }

    /** Serialize: exactly the keys Type, ID and Path are written, no model data. */
    method Serialize(w: JsonWriter)
      requires w.Valid()
      modifies w
      ensures w.Valid() && w.Fields() == old(w.Fields()) + Metadata(cls, id, path)
      ensures w.Fields().Keys == old(w.Fields()).Keys + {"Type", "ID", "Path"}
    {
      w.Write("Type", EncodeString(TypeName(cls)));
      w.Write("ID", EncodeInt(id));
      w.Write("Path", EncodeString(path));
    }

    /** Deserialize: read Path (default ""); reload the model only when that path is non-empty.
        Type and ID are not read, so the id stays the constructed one. A Path that is not a
        string throws before anything is assigned. */
    method Deserialize(data: Json) returns (thrown: Option<JsonError>)
      modifies this
      ensures ReadAs(data, "Path", "", AsString).Err? ==>
                thrown.Some? && path == old(path) && model == old(model)
      ensures ReadAs(data, "Path", "", AsString).Ok? ==>
                thrown == None && path == ReadAs(data, "Path", "", AsString).value
      ensures thrown == None && path != "" ==> model == Some(LoadedModel(path))
      ensures thrown == None && path == "" ==> model == old(model)
    {
      var read := ReadAs(data, "Path", "", AsString);
      if read.Err? {
        return Some(read.error);
      }
      thrown := None;
      path := read.value;
      if path != "" {
        model := Some(LoadedModel(path));
      }
    }
  }

  /** JResourceManager: the key map and the id map over the same shared instances, and the
      global id counter that construction on a cache miss draws from. */
  class ResourceManager {
    var byKey: map<string, Resource>
    var byId: map<nat, Resource>
    const ids: ObjectIdCounter

    /** Every keyed object is also stored under its own id; the id map holds nothing else;
        each key has its own instance; every stored id has already been handed out. */
    ghost predicate Valid()
      reads this, ids
    {
      && ids.Valid()
      && (forall k :: k in byKey ==> byKey[k].id in byId && byId[byKey[k].id] == byKey[k])
      && (forall i :: i in byId ==> byId[i].id == i && byId[i] in byKey.Values)
      && (forall k1, k2 :: k1 in byKey && k2 in byKey && k1 != k2 ==> byKey[k1].id != byKey[k2].id)
      && (forall i :: i in byId ==> i <= ids.lastId)
    }

    /** The instances the cache keeps alive through its shared pointers. */
    ghost function Held(): set<Resource>
      reads this
    {
      byKey.Values
    }

    constructor (ids: ObjectIdCounter)
      requires ids.Valid()
      ensures Valid() && this.ids == ids && byKey == map[] && byId == map[]
    {
      this.ids := ids;
      byKey := map[];
      byId := map[];
    }

    /** Load<T>(key, arg): on a cached key, the cached instance if it is a T and empty if it is not,
        with nothing constructed and nothing changed; on a missing key, exactly one new T built
        from arg, registered under the key and under its fresh id. Either way Has(key) holds after. */
    method Load(key: string, cls: ClassName, arg: string) returns (r: Resource?)
      requires Valid()
      modifies this, ids
      ensures Valid() && Has(key)
      ensures key in old(byKey) ==>
                && r == (if old(byKey)[key].cls == cls then old(byKey)[key] else null)
                && byKey == old(byKey) && byId == old(byId) && ids.lastId == old(ids.lastId)
      ensures key !in old(byKey) ==>
                && r != null && fresh(r) && r.cls == cls && r.path == arg
                && r.id == old(ids.lastId) + 1 && ids.lastId == r.id
                && r.model == (if cls == JModelResourceClass then Some(LoadedModel(arg)) else None)
                && byKey == old(byKey)[key := r] && byId == old(byId)[r.id := r]
    {
      if key in byKey {
        var existing := byKey[key];
        r := if existing.cls == cls then existing else null;
        return;
      }
      ghost var keys0, ids0 := byKey, byId;
      var id := ids.NewId();
      var resource := new Resource(id, cls, arg);
      byKey := byKey[key := resource];
      byId := byId[id := resource];
      r := resource;
      forall i | i in byId
        ensures byId[i] in byKey.Values
      {
        if i != id {
          assert i in ids0 && ids0[i] in keys0.Values;
          var k :| k in keys0 && keys0[k] == ids0[i];
          assert k != key && byKey[k] == byId[i];
        } else {
          assert byKey[key] == byId[i];
        }
      }
    }

    /** Get(key): the stored instance, or empty when the key is absent. */
    function Get(key: string): (r: Option<Resource>)
      reads this
      ensures r.Some? <==> key in byKey
      ensures r.Some? ==> r.value == byKey[key]
    {
      if key in byKey then Some(byKey[key]) else None
    }

    /** GetByID(id): the stored instance, or empty when the id is absent. */
    function GetByID(id: nat): (r: Option<Resource>)
      reads this
      ensures r.Some? <==> id in byId
      ensures r.Some? ==> r.value == byId[id]
    {
      if id in byId then Some(byId[id]) else None
    }

    /** Has(key): the key is in the key map. */
    predicate Has(key: string)
      reads this
    {
      key in byKey
    }

    /** Unload(key): false with nothing changed for a missing key; otherwise the key and its
        object's id entry are removed, and every other key still resolves to its instance. */
    method Unload(key: string) returns (removed: bool)
      requires Valid()
      modifies this
      ensures Valid() && removed == (key in old(byKey))
      ensures !removed ==> byKey == old(byKey) && byId == old(byId)
      ensures removed ==> byKey == old(byKey) - {key} && byId == old(byId) - {old(byKey)[key].id}
      ensures forall k :: k in old(byKey) && k != key ==> k in byKey && byKey[k] == old(byKey)[k]
    {
      if key !in byKey {
        return false;
      }
      var id := byKey[key].id;
      ghost var keys0, ids0 := byKey, byId;
      byKey := byKey - {key};
      byId := byId - {id};
      forall i | i in byId
        ensures byId[i] in byKey.Values
      {
        assert ids0[i] in keys0.Values;
        var k :| k in keys0 && keys0[k] == ids0[i];
        assert k != key && byKey[k] == byId[i];
      }
      removed := true;
    }

    /** UnloadAll: both maps end up empty. */
    method UnloadAll()
      requires Valid()
      modifies this
      ensures Valid() && byKey == map[] && byId == map[]
    {
      byKey := map[];
      byId := map[];
    }

    /** Every instance reached by key is the one its id reaches: the two maps agree. */
    lemma KeyAndIdAgree(key: string)
      requires Valid() && Has(key)
      ensures GetByID(Get(key).value.id) == Get(key)
    {
    }
  }

  /** Two Loads of the same key return the identical instance, whatever the second call's
      argument: the second one only looks the key up. */
  method LoadTwice(m: ResourceManager, key: string, cls: ClassName, arg1: string, arg2: string)
    returns (first: Resource?, second: Resource?)
    requires m.Valid()
    modifies m, m.ids
    ensures m.Valid() && first == second
    ensures key !in old(m.byKey) ==> first != null && fresh(first) && first.path == arg1
  {
    first := m.Load(key, cls, arg1);
    second := m.Load(key, cls, arg2);
  }

  /** After Unload(key), Load(key, arg) misses and builds a fresh instance from arg. */
  method ReloadAfterUnload(m: ResourceManager, key: string, cls: ClassName, arg: string)
    returns (removed: bool, reloaded: Resource?)
    requires m.Valid() && m.Has(key)
    modifies m, m.ids
    ensures m.Valid() && removed
    ensures reloaded != null && fresh(reloaded) && reloaded.path == arg && reloaded.cls == cls
    ensures reloaded != old(m.byKey[key]) && m.Has(key) && m.byKey[key] == reloaded
  {
    removed := m.Unload(key);
    reloaded := m.Load(key, cls, arg);
  }
}

=== FILE: scene.dfy ===
/** JScene: the registry of the actors of one scene. Actors live in a dense sequence, each
    remembering its own slot, with an id index beside it; ids come from a counter that
    starts at 1. Removal swaps the removed actor with the last one and pops, in O(1). */
module Scenes {
  import opened Wrappers
  import opened Geometry
  import opened Actors

  /** What the scene's OnActorAdded / OnActorRemoved listeners are told, in order. The
      removal is reported by id: the source hands the listener the pointer of an actor that
      pop_back has already destroyed, so only its id is meaningful. */
  datatype SceneEvent = ActorAdded(actor: Actor) | ActorRemoved(id: nat)

  /** The storage after removing slot i by swap-with-last and pop_back: the last element moves
      into slot i, every other slot keeps its element, and the sequence is one shorter. */
  function SwapRemove<T>(s: seq<T>, i: nat): (r: seq<T>)
    requires i < |s|
    ensures |r| == |s| - 1
    ensures i < |r| ==> r[i] == s[|s| - 1]
    ensures forall k :: 0 <= k < |r| && k != i ==> r[k] == s[k]
  {
    if i == |s| - 1 then s[..i] else s[i := s[|s| - 1]][..|s| - 1]
  }

  /** An element other than the removed one is still there after swap-removal. */
  lemma {:induction false} SwapRemoveKeeps<T>(s: seq<T>, i: nat, x: T)
    requires i < |s| && x in s && x != s[i]
    ensures x in SwapRemove(s, i)
  {
    var j :| 0 <= j < |s| && s[j] == x;
    var r := SwapRemove(s, i);
    if j == |s| - 1 {
      assert r[i] == x;
    } else {
      assert r[j] == x;
    }
  }

  /** Swap-removal loses exactly the removed element: no other element is lost or duplicated,
      only the order changes. */
  lemma {:induction false} SwapRemoveMultiset<T>(s: seq<T>, i: nat)
    requires i < |s|
    ensures multiset(SwapRemove(s, i)) == multiset(s) - multiset{s[i]}
  {
    var n := |s| - 1;
    if i == n {
      assert s == s[..n] + [s[n]];
      assert multiset(s) == multiset(s[..n]) + multiset{s[n]};
    } else {
      var r := SwapRemove(s, i);
      assert r == s[..i] + [s[n]] + s[i + 1..n];
      assert s == s[..i] + [s[i]] + s[i + 1..n] + [s[n]];
      assert multiset(s) == multiset(s[..i]) + multiset{s[i]} + multiset(s[i + 1..n]) + multiset{s[n]};
      assert multiset(r) == multiset(s[..i]) + multiset{s[n]} + multiset(s[i + 1..n]);
    }
  }

  /** The actors of storage s that are of type t, in storage order: what FindActorsOfType<T>
      collects, by dynamic_cast, into its result vector. */
  function OfType(s: seq<Actor>, t: string): (r: seq<Actor>)
  {
    if s == [] then []
    else OfType(s[..|s| - 1], t) + (if IsA(s[|s| - 1], t) then [s[|s| - 1]] else [])
  }

  /** An actor is collected exactly when it is stored and is of type t. */
  lemma {:induction false} OfTypeMembers(s: seq<Actor>, t: string)
    ensures forall a :: a in OfType(s, t) <==> a in s && IsA(a, t)
  {
    if s != [] {
      OfTypeMembers(s[..|s| - 1], t);
      assert s == s[..|s| - 1] + [s[|s| - 1]];
    }
  }

  /** Collecting keeps storage order: if slot i holds the first actor of type t, the collection
      starts with it; if no slot does, the collection is empty. */
  lemma {:induction false} OfTypeStartsWithFirstMatch(s: seq<Actor>, t: string, i: nat)
    requires i < |s| && IsA(s[i], t)
    requires forall j :: 0 <= j < i ==> !IsA(s[j], t)
    ensures OfType(s, t) != [] && OfType(s, t)[0] == s[i]
  {
    var n := |s| - 1;
    if i < n {
      OfTypeStartsWithFirstMatch(s[..n], t, i);
    } else {
      NoneOfType(s[..n], t);
    }
  }

  /** No actor of type t in storage: nothing is collected. */
  lemma {:induction false} NoneOfType(s: seq<Actor>, t: string)
    requires forall j :: 0 <= j < |s| ==> !IsA(s[j], t)
    ensures OfType(s, t) == []
  {
    if s != [] {
      NoneOfType(s[..|s| - 1], t);
    }
  }

  class Scene {
    var name: string
    var actors: seq<Actor>
    var nextActorId: nat
    var actorsById: map<nat, Actor>
    /** m_bIsDirty: true from construction on; no operation of the scene writes it. */
    var dirty: bool
    var events: seq<SceneEvent>

    /** Every actor sits in the slot it records; the id index maps exactly the stored actors'
        ids to them; every id in use was handed out by the counter. */
    ghost predicate Valid()
      reads this, actors
    {
      && nextActorId >= 1
      && (forall i :: 0 <= i < |actors| ==> actors[i].vectorIndex == i)
      && (forall i :: 0 <= i < |actors| ==> actors[i].id in actorsById && actorsById[actors[i].id] == actors[i])
      && (forall id :: id in actorsById ==> actorsById[id] in actors && actorsById[id].id == id)
      && (forall id :: id in actorsById ==> 1 <= id < nextActorId)
    }

    /** JScene(name): the given name, no actors, next id 1, dirty. */
    constructor (name: string)
      ensures Valid() && this.name == name && actors == [] && actorsById == map[]
      ensures nextActorId == 1 && dirty && events == []
    {
      this.name := name;
      actors := [];
      nextActorId := 1;
      actorsById := map[];
      dirty := true;
      events := [];
    }

    /** A stored actor's id resolves to it, and distinct slots hold distinct actors. */
    lemma StoredActorsAreIndexed()
      requires Valid()
      ensures forall i :: 0 <= i < |actors| ==> FindActorByID(actors[i].id) == actors[i]
      ensures forall i, j :: 0 <= i < j < |actors| ==> actors[i] != actors[j]
      ensures forall i, j :: 0 <= i < j < |actors| ==> actors[i].id != actors[j].id
    {
    }

    /** FindActorByID(id): the indexed actor, or null; it changes nothing. */
    function FindActorByID(id: nat): (r: Actor?)
      reads this
      ensures r == null <==> id !in actorsById
      ensures r != null ==> r == actorsById[id]
    {
      if id in actorsById then actorsById[id] else null
    }

    /** What FindActorByID finds is stored, in the slot it records, and carries the id asked for. */
    lemma FoundActorIsStored(id: nat)
      requires Valid() && FindActorByID(id) != null
      ensures FindActorByID(id) in actors && FindActorByID(id).id == id
      ensures FindActorByID(id).vectorIndex < |actors| && actors[FindActorByID(id).vectorIndex] == FindActorByID(id)
    {
      var a := FindActorByID(id);
      var i :| 0 <= i < |actors| && actors[i] == a;
      assert a.vectorIndex == i;
    }

    /** The typed FindActorByID<T>(id) as written: the indexed actor, with no check that it is a T. */
    function FindActorByIDAsWritten(id: nat, t: string): (r: Actor?)
      reads this
      ensures r == null <==> id !in actorsById
      ensures r != null ==> r == actorsById[id]
    {
      FindActorByID(id)
    }

    /** The typed FindActorByID<T>(id) as documented: null when the id is absent or its actor
        is not a T. */
    function FindActorByIDOfType(id: nat, t: string): (r: Actor?)
      reads this
      ensures r != null <==> id in actorsById && IsA(actorsById[id], t)
      ensures r != null ==> r == actorsById[id] && IsA(r, t)
    {
      if id in actorsById && IsA(actorsById[id], t) then actorsById[id] else null
    }

    /** The typed lookup as written hands back an actor that is not a T whenever one is indexed
        under the id: the null its documentation promises never comes. */
    lemma TypedLookupIgnoresType(id: nat, t: string)
      requires id in actorsById && !IsA(actorsById[id], t)
      ensures FindActorByIDAsWritten(id, t) != null && !IsA(FindActorByIDAsWritten(id, t), t)
      ensures FindActorByIDOfType(id, t) == null
    {
    }

    /** FindActorOfType<T>(): the first actor of type t in storage order, or null if there is none. */
    method FindActorOfType(t: string) returns (r: Actor?)
      ensures r == null ==> forall i :: 0 <= i < |actors| ==> !IsA(actors[i], t)
      ensures r != null ==> exists i :: 0 <= i < |actors| && actors[i] == r && IsA(r, t) &&
                                        forall j :: 0 <= j < i ==> !IsA(actors[j], t)
      ensures r == null <==> OfType(actors, t) == []
      ensures r != null ==> r == OfType(actors, t)[0]
    {
      var i := 0;
      while i < |actors|
        invariant 0 <= i <= |actors|
        invariant forall j :: 0 <= j < i ==> !IsA(actors[j], t)
      {
        if IsA(actors[i], t) {
          OfTypeStartsWithFirstMatch(actors, t, i);
          return actors[i];
        }
        i := i + 1;
      }
      NoneOfType(actors, t);
      return null;
    }

    /** FindActorsOfType<T>(): every actor of type t, in storage order. */
    method FindActorsOfType(t: string) returns (rs: seq<Actor>)
      ensures rs == OfType(actors, t)
      ensures forall a :: a in rs <==> a in actors && IsA(a, t)
    {
      rs := [];
      var i := 0;
      while i < |actors|
        invariant 0 <= i <= |actors|
        invariant rs == OfType(actors[..i], t)
      {
        assert actors[..i + 1][..i] == actors[..i];
        if IsA(actors[i], t) {
          rs := rs + [actors[i]];
        }
        i := i + 1;
      }
      assert actors[..i] == actors;
      OfTypeMembers(actors, t);
    }

    /** AddActorToList: the actor goes into the next slot, records that slot, is indexed under its
        id, and OnActorAdded is told after the insertion. The actor's id must be unused, as the
        one caller, SpawnActor, guarantees. */
    method AddActorToList(actor: Actor)
      requires Valid() && actor.id !in actorsById && 1 <= actor.id < nextActorId
      modifies this, actor`vectorIndex
      ensures Valid()
      ensures actor.vectorIndex == |old(actors)| && actors == old(actors) + [actor]
      ensures actorsById == old(actorsById)[actor.id := actor]
      ensures events == old(events) + [ActorAdded(actor)]
      ensures name == old(name) && nextActorId == old(nextActorId) && dirty == old(dirty)
      ensures actor.id == old(actor.id)
    {
      assert actor !in actors;
      actor.vectorIndex := |actors|;
      actorsById := actorsById[actor.id := actor];
      actors := actors + [actor];
      events := events + [ActorAdded(actor)];
    }

    /** SpawnActor<T>(args): construct the actor from args, give it the next id, then advance the
        counter, so consecutive spawns get consecutive ids; the new actor is found by its id. */
    method SpawnActor(classChain: seq<string>, model: Option<ModelRef>, actorName: string,
                      position: Vec3, rotation: Vec3, scale: Vec3) returns (a: Actor)
      requires Valid() && IsClassChain(classChain)
      modifies this
      ensures Valid() && fresh(a)
      ensures a.id == old(nextActorId) && nextActorId == old(nextActorId) + 1
      ensures actors == old(actors) + [a] && actorsById == old(actorsById)[a.id := a]
      ensures FindActorByID(a.id) == a && a.vectorIndex == |old(actors)|
      ensures a.classChain == classChain && a.model == model && a.name == actorName
      ensures a.position == position && a.rotation == rotation && a.scale == scale
      ensures a.config == DefaultConfig
      ensures events == old(events) + [ActorAdded(a)]
      ensures name == old(name) && dirty == old(dirty)
    {
      a := new Actor(classChain, model, actorName, position, rotation, scale);
      a.id := nextActorId;
      nextActorId := nextActorId + 1;
      AddActorToList(a);
    }

    /** The storage half of a removal: slot idx is refilled by the last actor, which records its
        new slot, and the storage shrinks by one; every other actor keeps its slot. */
    method SwapOutSlot(idx: nat)
      requires idx < |actors|
      requires forall i :: 0 <= i < |actors| ==> actors[i].vectorIndex == i
      modifies this`actors, actors`vectorIndex
      ensures actors == SwapRemove(old(actors), idx)
      ensures forall i :: 0 <= i < |actors| ==> actors[i].vectorIndex == i
    {
      var last := |actors| - 1;
      ghost var before := actors;
      if idx != last {
        var moved := actors[last];
        actors := actors[idx := moved][..last];
        moved.vectorIndex := idx;
        forall i | 0 <= i < |actors| && i != idx
          ensures actors[i].vectorIndex == i
        {
          assert actors[i] == before[i] && before[i] != moved;
        }
      } else {
        actors := actors[..last];
      }
    }

    /** The index half of a removal, once the storage no longer holds the actor at slot idx of
        the storage before: the id is unindexed, OnActorRemoved is told, and the scene is
        consistent again. */
    method Unindex(id: nat, ghost before: seq<Actor>, ghost idx: nat)
      requires idx < |before| && id in actorsById && actorsById[id] == before[idx]
      requires actors == SwapRemove(before, idx) && nextActorId >= 1
      requires forall i :: 0 <= i < |before| && i != idx ==> before[i] != before[idx]
      requires forall i :: 0 <= i < |actors| ==> actors[i].vectorIndex == i
      requires forall i :: 0 <= i < |before| ==> before[i].id in actorsById && actorsById[before[i].id] == before[i]
      requires forall k :: k in actorsById ==> actorsById[k] in before && actorsById[k].id == k && 1 <= k < nextActorId
      modifies this`actorsById, this`events
      ensures Valid()
      ensures actorsById == old(actorsById) - {id} && events == old(events) + [ActorRemoved(id)]
    {
      ghost var index0 := actorsById;
      actorsById := actorsById - {id};
      events := events + [ActorRemoved(id)];
      forall i | 0 <= i < |actors|
        ensures actors[i].id in actorsById && actorsById[actors[i].id] == actors[i]
      {
        var j := if i == idx then |before| - 1 else i;
        assert actors[i] == before[j] && j != idx;
        assert index0[before[j].id] == before[j];
      }
      forall k | k in actorsById
        ensures actorsById[k] in actors && actorsById[k].id == k
      {
        SwapRemoveKeeps(before, idx, index0[k]);
      }
    }

    /** RemoveActor(id): false with nothing changed for an absent id. Otherwise the actor's slot
        is refilled by the last actor (which records its new slot) and the storage shrinks by one;
        the id is unindexed; OnActorRemoved is told afterwards. */
    method RemoveActorById(id: nat) returns (removed: bool)
      requires Valid()
      modifies this, actors`vectorIndex
      ensures Valid() && removed == (id in old(actorsById))
      ensures !removed ==> actors == old(actors) && actorsById == old(actorsById) && events == old(events)
      ensures removed ==>
                && old(actorsById[id].vectorIndex) < |old(actors)|
                && actors == SwapRemove(old(actors), old(actorsById[id].vectorIndex))
                && actorsById == old(actorsById) - {id}
                && events == old(events) + [ActorRemoved(id)]
      ensures name == old(name) && nextActorId == old(nextActorId) && dirty == old(dirty)
      ensures forall a :: a in old(actors) ==> KeepsFields(a)
      ensures FindActorByID(id) == null
      ensures forall k :: k in old(actorsById) && k != id ==> FindActorByID(k) == old(actorsById)[k]
    {
      if id !in actorsById {
        return false;
      }
      var a := actorsById[id];
      FoundActorIsStored(id);
      var idx := a.vectorIndex;
      ghost var before := actors;
      assert forall i :: 0 <= i < |before| && i != idx ==> before[i].vectorIndex != a.vectorIndex;
      SwapOutSlot(idx);
      Unindex(id, before, idx);
      removed := true;
    }

    /** RemoveActor(actorPtr): false for null; otherwise removal by the id of the actor it points to, so a pointer
        to an actor of another scene removes whichever actor of this scene holds that id. */
    method RemoveActor(actorPtr: Actor?) returns (removed: bool)
      requires Valid()
      modifies this, actors`vectorIndex
      ensures Valid()
      ensures actorPtr == null ==> !removed && actors == old(actors) && actorsById == old(actorsById) && events == old(events)
      ensures actorPtr != null ==> removed == (old(actorPtr.id) in old(actorsById))
      ensures removed ==>
                && old(actorsById[actorPtr.id].vectorIndex) < |old(actors)|
                && actors == SwapRemove(old(actors), old(actorsById[actorPtr.id].vectorIndex))
                && actorsById == old(actorsById) - {old(actorPtr.id)}
                && events == old(events) + [ActorRemoved(old(actorPtr.id))]
      ensures !removed ==> actors == old(actors) && actorsById == old(actorsById) && events == old(events)
      ensures name == old(name) && nextActorId == old(nextActorId) && dirty == old(dirty)
      ensures forall a :: a in old(actors) ==> KeepsFields(a)
    {
      if actorPtr == null {
        return false;
      }
      removed := RemoveActorById(actorPtr.id);
    }

    /** UpdateActors(deltaTime): the per-actor update is commented out in the source, so the
        loop visits every actor and changes nothing, on any scene, empty or not. */
    method UpdateActors(deltaTime: real)
      ensures unchanged(this) && unchanged(actors)
    {
      for i := 0 to |actors| {
      }
    }

    /** SetName(name): only the name changes. */
    method SetName(newName: string)
      modifies this
      ensures name == newName
      ensures actors == old(actors) && actorsById == old(actorsById) && nextActorId == old(nextActorId)
      ensures dirty == old(dirty) && events == old(events)
    {
      name := newName;
    }
  }
}

=== FILE: scene_manager.dfy ===
/** SceneManager: the owner of the active scene. Actor operations go through it to the active
    scene, with the editor notified around them; scenes are saved to and loaded from files
    under the engine directory, and a scene file's metadata can be read on its own. */
module SceneManagement {
  import opened Wrappers
  import opened Geometry
  import opened Json
  import opened Actors
  import opened Scenes

  /** The file system as the manager sees it: each existing file holds a JSON document, or
      None when its text is not one (an empty or truncated file); some paths cannot be
      opened for writing. */
  class FileStore {
    var files: map<string, Option<Json>>
    const unwritable: set<string>

    constructor (files: map<string, Option<Json>>, unwritable: set<string>)
      ensures this.files == files && this.unwritable == unwritable
    {
      this.files := files;
      this.unwritable := unwritable;
    }
  }

  /** What the manager's listeners are told, in order: OnActorAdded, OnActorRemoving,
      OnActorRemoved (given the id), OnSceneLoaded, OnSceneSaved and OnSceneRenamed. */
  datatype Notification =
    | Added(actor: Actor)
    | Removing(actor: Actor)
    | Removed(id: nat)
    | Loaded(scene: Scene)
    | Saved(scene: Scene)
    | Renamed(scene: Scene, newName: string)

  /** The record ReadSceneMeta fills. */
  datatype SceneMeta = SceneMeta(name: string, actorCount: int, lastModified: string, thumbnail: string)

  /** The record's initial values, returned as they are when the file cannot be opened. The
      declaration of SceneMeta is not part of this model; these initialisers are assumed. */
  const DefaultMeta := SceneMeta("Unnamed", 0, "", "")

  /** j["meta"]["last_modified"] = timestamp, as SaveScene stamps the serialised scene: null
      becomes an object on the first subscript, an object gains or overwrites the key, and a
      subscript into anything else throws. */
  function StampMeta(j: Json, timestamp: string): (r: Result<Json>)
    ensures r.Ok? <==> (j.JNull? || (j.JObj? && (!("meta" in j.fields) || j.fields["meta"].JNull? || j.fields["meta"].JObj?)))
    ensures r.Ok? ==> r.value.JObj? && "meta" in r.value.fields
    ensures r.Ok? ==> ReadAs(r.value.fields["meta"], "last_modified", "", AsString) == Ok(timestamp)
    ensures r.Ok? ==> forall k :: k in FieldsOf(j) && k != "meta" ==> k in r.value.fields && r.value.fields[k] == j.fields[k]
    ensures r.Ok? ==> r.value.fields.Keys == FieldsOf(j).Keys + {"meta"}
  {
    match j
    case JNull => Ok(JObj(map["meta" := JObj(map["last_modified" := JStr(timestamp)])]))
    case JObj(f) =>
      var meta := if "meta" in f then f["meta"] else JNull;
      (match meta
       case JNull => Ok(JObj(f["meta" := JObj(map["last_modified" := JStr(timestamp)])]))
       case JObj(g) => Ok(JObj(f["meta" := JObj(g["last_modified" := JStr(timestamp)])]))
       case _ => Err(TypeError("meta")))
    case _ => Err(TypeError("meta"))
  }

  /** ReadSceneMeta as written: a missing file gives the initial record; otherwise name and
      actor_count are read with value() and then j["meta"].value(...) twice. On a file whose
      object has no "meta" key, j["meta"] is null, and value() on null throws. */
  function ReadSceneMetaAsWritten(files: map<string, Option<Json>>, path: string): (r: Result<SceneMeta>)
    ensures path !in files ==> r == Ok(DefaultMeta)
    ensures (path in files && files[path].Some? && files[path].value.JObj? && "meta" !in files[path].value.fields)
              ==> r.Err?
  {
    if path !in files then Ok(DefaultMeta)
    else match files[path]
      case None => Err(ParseError)
      case Some(j) =>
        match ValueOr(j, "name", "Unnamed", AsString)
        case Err(e) => Err(e)
        case Ok(name) =>
          match ValueOr(j, "actor_count", 0, AsInt)
          case Err(e) => Err(e)
          case Ok(count) =>
            var meta := if "meta" in j.fields then j.fields["meta"] else JNull;
            match ValueOr(meta, "last_modified", "", AsString)
            case Err(e) => Err(e)
            case Ok(modified) =>
              match ValueOr(meta, "thumbnail", "", AsString)
              case Err(e) => Err(e)
              case Ok(thumb) => Ok(SceneMeta(name, count, modified, thumb))
  }

  /** The "meta" object the metadata is read from, with a missing or null entry read as an empty
      object, so that last_modified and thumbnail fall back to "" as their defaults promise. */
  function MetaEntry(j: Json): (m: Json)
    requires j.JObj?
    ensures "meta" in j.fields && !j.fields["meta"].JNull? ==> m == j.fields["meta"]
    ensures !("meta" in j.fields) || j.fields["meta"].JNull? ==> m == JObj(map[])
  {
    if "meta" in j.fields && !j.fields["meta"].JNull? then j.fields["meta"] else JObj(map[])
  }

  /** ReadSceneMeta with every absent key defaulted, the "meta" object included. */
  function ReadSceneMeta(files: map<string, Option<Json>>, path: string): (r: Result<SceneMeta>)
    ensures path !in files ==> r == Ok(DefaultMeta)
    ensures path in files && files[path].Some? && files[path].value == JObj(map[]) ==> r == Ok(DefaultMeta)
    ensures path in files && files[path].Some? && files[path].value.JObj? ==>
              (r.Ok? <==> && ValueOr(files[path].value, "name", "Unnamed", AsString).Ok?
                          && ValueOr(files[path].value, "actor_count", 0, AsInt).Ok?
                          && ValueOr(MetaEntry(files[path].value), "last_modified", "", AsString).Ok?
                          && ValueOr(MetaEntry(files[path].value), "thumbnail", "", AsString).Ok?)
    // Each key defaults on its own: a present key supplies its converted value, an absent one its default.
    ensures path in files && files[path].Some? && files[path].value.JObj? && r.Ok? ==>
              var j := files[path].value;
              && ("name" in j.fields ==> AsString(j.fields["name"]) == Some(r.value.name))
              && ("name" !in j.fields ==> r.value.name == "Unnamed")
              && ("actor_count" in j.fields ==> AsInt(j.fields["actor_count"]) == Some(r.value.actorCount))
              && ("actor_count" !in j.fields ==> r.value.actorCount == 0)
              && MetaEntry(j).JObj?
              && ("last_modified" in MetaEntry(j).fields ==>
                    AsString(MetaEntry(j).fields["last_modified"]) == Some(r.value.lastModified))
              && ("last_modified" !in MetaEntry(j).fields ==> r.value.lastModified == "")
              && ("thumbnail" in MetaEntry(j).fields ==>
                    AsString(MetaEntry(j).fields["thumbnail"]) == Some(r.value.thumbnail))
              && ("thumbnail" !in MetaEntry(j).fields ==> r.value.thumbnail == "")
  {
    if path !in files then Ok(DefaultMeta)
    else match files[path]
      case None => Err(ParseError)
      case Some(j) =>
        match ValueOr(j, "name", "Unnamed", AsString)
        case Err(e) => Err(e)
        case Ok(name) =>
          match ValueOr(j, "actor_count", 0, AsInt)
          case Err(e) => Err(e)
          case Ok(count) =>
            var meta := MetaEntry(j);
            match ValueOr(meta, "last_modified", "", AsString)
            case Err(e) => Err(e)
            case Ok(modified) =>
              match ValueOr(meta, "thumbnail", "", AsString)
              case Err(e) => Err(e)
              case Ok(thumb) => Ok(SceneMeta(name, count, modified, thumb))
  }

  /** The input that shows the difference: a scene file holding {"name": "Lake"}. As written the
      read throws; with the defaults applied it gives the name and the defaults. */
  lemma MetaMissingThrowsAsWritten(path: string)
    ensures ReadSceneMetaAsWritten(map[path := Some(JObj(map["name" := JStr("Lake")]))], path).Err?
    ensures ReadSceneMeta(map[path := Some(JObj(map["name" := JStr("Lake")]))], path) == Ok(SceneMeta("Lake", 0, "", ""))
  {
    var j := JObj(map["name" := JStr("Lake")]);
    assert "meta" !in j.fields && "actor_count" !in j.fields;
  }

  /** The two readings agree on every file that has a "meta" object; they differ only where the
      written one throws. */
  lemma ReadSceneMetaAgreesWhenMetaPresent(files: map<string, Option<Json>>, path: string)
    requires path in files && files[path].Some? && files[path].value.JObj?
    requires "meta" in files[path].value.fields && files[path].value.fields["meta"].JObj?
    ensures ReadSceneMeta(files, path) == ReadSceneMetaAsWritten(files, path)
  {
  }

  /** A file SaveScene wrote reads back with the timestamp it was stamped with. */
  lemma {:induction false} SavedFileReadsTimestamp(files: map<string, Option<Json>>, path: string,
                                                  serialized: Json, timestamp: string)
    requires StampMeta(serialized, timestamp).Ok?
    requires ValueOr(StampMeta(serialized, timestamp).value, "name", "Unnamed", AsString).Ok?
    requires ValueOr(StampMeta(serialized, timestamp).value, "actor_count", 0, AsInt).Ok?
    requires ValueOr(StampMeta(serialized, timestamp).value.fields["meta"], "thumbnail", "", AsString).Ok?
    ensures ReadSceneMeta(files[path := Some(StampMeta(serialized, timestamp).value)], path).Ok?
    ensures ReadSceneMeta(files[path := Some(StampMeta(serialized, timestamp).value)], path).value.lastModified == timestamp
  {
    var j := StampMeta(serialized, timestamp).value;
    var files' := files[path := Some(j)];
    assert files'[path] == Some(j);
    assert MetaEntry(j) == j.fields["meta"];
  }

  class SceneManager {
    /** ENGINE_DIRECTORY, under which the scene files live. */
    const engineDirectory: string
    /** m_ActiveScene: owned; null until a scene is loaded. */
    var activeScene: Scene?
    var notifications: seq<Notification>

    ghost predicate Valid()
      reads this, activeScene, if activeScene == null then [] else activeScene.actors
    {
      activeScene != null ==> activeScene.Valid()
    }

    constructor (engineDirectory: string)
      ensures Valid() && this.engineDirectory == engineDirectory
      ensures activeScene == null && notifications == []
    {
      this.engineDirectory := engineDirectory;
      activeScene := null;
      notifications := [];
    }

    /** The file a scene named by filename is stored in. */
    function ScenePath(filename: string): (p: string)
      ensures |p| == |engineDirectory| + |filename| + 22
      ensures p[..|engineDirectory|] == engineDirectory
      ensures p[|p| - 7..] == ".jscene"
    {
      engineDirectory + "/Assets/Scenes/" + filename + ".jscene"
    }

    /** GetActiveScene(): the scene LoadScene last made active, or null before any. */
    function GetActiveScene(): Scene?
      reads this
    {
      activeScene
    }

    /** SpawnActor<T>(args): null, and no notification, without an active scene; otherwise the
        active scene spawns the actor and OnActorAdded is told exactly once, with that actor. */
    method SpawnActor(classChain: seq<string>, model: Option<ModelRef>, actorName: string,
                      position: Vec3, rotation: Vec3, scale: Vec3) returns (a: Actor?)
      requires Valid() && IsClassChain(classChain)
      modifies this, activeScene
      ensures Valid() && activeScene == old(activeScene)
      ensures old(activeScene) == null ==> a == null && notifications == old(notifications)
      ensures old(activeScene) != null ==>
                && a != null && fresh(a)
                && a.id == old(activeScene.nextActorId)
                && activeScene.nextActorId == old(activeScene.nextActorId) + 1
                && activeScene.actors == old(activeScene.actors) + [a]
                && activeScene.actorsById == old(activeScene.actorsById)[a.id := a]
                && activeScene.FindActorByID(a.id) == a
                && a.classChain == classChain && a.model == model && a.name == actorName
                && a.position == position && a.rotation == rotation && a.scale == scale
                && a.config == DefaultConfig
                && activeScene.events == old(activeScene.events) + [ActorAdded(a)]
                && activeScene.name == old(activeScene.name) && activeScene.dirty == old(activeScene.dirty)
                && notifications == old(notifications) + [Added(a)]
    {
      if activeScene == null {
        return null;
      }
      a := activeScene.SpawnActor(classChain, model, actorName, position, rotation, scale);
      notifications := notifications + [Added(a)];
    }

    /** FindActorByID(id): null without an active scene, otherwise the active scene's answer. */
    function FindActorByID(id: nat): (r: Actor?)
      reads this, activeScene
      ensures activeScene == null ==> r == null
      ensures activeScene != null ==> (r == null <==> id !in activeScene.actorsById)
      ensures activeScene != null && r != null ==> r == activeScene.actorsById[id]
    {
      if activeScene == null then null else activeScene.FindActorByID(id)
    }

    /** The typed FindActorByID<T>(id) as written: the active scene's unchecked lookup, so the
        type plays no part and the answer is the untyped lookup's. */
    function FindActorByIDAsWritten(id: nat, t: string): (r: Actor?)
      reads this, activeScene
      ensures r != null <==> activeScene != null && id in activeScene.actorsById
      ensures r != null ==> r == activeScene.actorsById[id]
      ensures r == FindActorByID(id)
    {
      if activeScene == null then null else activeScene.FindActorByIDAsWritten(id, t)
    }

    /** The typed FindActorByID<T>(id) as documented, on the scene's lookup that honours the type. */
    function FindActorByIDOfType(id: nat, t: string): (r: Actor?)
      reads this, activeScene
      ensures r != null <==> activeScene != null && id in activeScene.actorsById && IsA(activeScene.actorsById[id], t)
      ensures r != null ==> r == activeScene.actorsById[id]
    {
      if activeScene == null then null else activeScene.FindActorByIDOfType(id, t)
    }

    /** Through the manager too, an indexed actor of another type comes back from the lookup as
        written, where the documented lookup gives null. */
    lemma TypedLookupIgnoresType(id: nat, t: string)
      requires activeScene != null && id in activeScene.actorsById && !IsA(activeScene.actorsById[id], t)
      ensures FindActorByIDAsWritten(id, t) != null && !IsA(FindActorByIDAsWritten(id, t), t)
      ensures FindActorByIDOfType(id, t) == null
    {
      activeScene.TypedLookupIgnoresType(id, t);
    }

    /** FindActorOfType<T>(): null without an active scene, otherwise the active scene's first match. */
    method FindActorOfType(t: string) returns (r: Actor?)
      ensures activeScene == null ==> r == null
      ensures activeScene != null ==> (r == null <==> OfType(activeScene.actors, t) == [])
      ensures activeScene != null && r != null ==> r == OfType(activeScene.actors, t)[0]
    {
      if activeScene == null {
        return null;
      }
      r := activeScene.FindActorOfType(t);
    }

    /** FindActorsOfType<T>(): empty without an active scene, otherwise all the active scene's matches. */
    method FindActorsOfType(t: string) returns (rs: seq<Actor>)
      ensures activeScene == null ==> rs == []
      ensures activeScene != null ==> rs == OfType(activeScene.actors, t)
    {
      if activeScene == null {
        return [];
      }
      rs := activeScene.FindActorsOfType(t);
    }

    /** RemoveActor(actorPtr): false, with no notification, without an active scene or for null.
        Otherwise OnActorRemoving is told first, then the scene removes by the pointer's id, and
        OnActorRemoved is told that id only if the removal succeeded. */
    method RemoveActor(actorPtr: Actor?) returns (removed: bool)
      requires Valid()
      modifies this, activeScene, if activeScene == null then [] else activeScene.actors
      ensures Valid() && activeScene == old(activeScene)
      ensures old(activeScene) == null || actorPtr == null ==> !removed && notifications == old(notifications)
      ensures old(activeScene) != null && actorPtr != null ==>
                && removed == (old(actorPtr.id) in old(activeScene.actorsById))
                && notifications == old(notifications) + [Removing(actorPtr)] +
                                    (if removed then [Removed(old(actorPtr.id))] else [])
      ensures removed ==>
                && old(activeScene.actorsById[actorPtr.id].vectorIndex) < |old(activeScene.actors)|
                && activeScene.actors == SwapRemove(old(activeScene.actors), old(activeScene.actorsById[actorPtr.id].vectorIndex))
                && activeScene.actorsById == old(activeScene.actorsById) - {old(actorPtr.id)}
                && activeScene.events == old(activeScene.events) + [ActorRemoved(old(actorPtr.id))]
      ensures !removed && old(activeScene) != null ==>
                && activeScene.actors == old(activeScene.actors) && activeScene.actorsById == old(activeScene.actorsById)
                && activeScene.events == old(activeScene.events)
      ensures old(activeScene) != null ==>
                && activeScene.name == old(activeScene.name) && activeScene.nextActorId == old(activeScene.nextActorId)
                && activeScene.dirty == old(activeScene.dirty)
      ensures old(activeScene) != null ==> forall a :: a in old(activeScene.actors) ==> KeepsFields(a)
    {
      if activeScene == null || actorPtr == null {
        return false;
      }
      notifications := notifications + [Removing(actorPtr)];
      var id := actorPtr.id;
      removed := activeScene.RemoveActor(actorPtr);
      ghost var scene := activeScene;
      assert scene.Valid();  // the scene is consistent before the notification log grows
      if removed {
        notifications := notifications + [Removed(id)];
      }
    }

    /** RemoveActor(id): false, with no notification, without an active scene or when the id is
        not found; otherwise the pointer removal of the actor found. */
    method RemoveActorById(id: nat) returns (removed: bool)
      requires Valid()
      modifies this, activeScene, if activeScene == null then [] else activeScene.actors
      ensures Valid() && activeScene == old(activeScene)
      ensures removed == (old(activeScene) != null && id in old(activeScene.actorsById))
      ensures !removed ==> notifications == old(notifications)
      ensures removed ==>
                && notifications == old(notifications) + [Removing(old(activeScene.actorsById[id])), Removed(id)]
                && old(activeScene.actorsById[id].vectorIndex) < |old(activeScene.actors)|
                && activeScene.actors == SwapRemove(old(activeScene.actors), old(activeScene.actorsById[id].vectorIndex))
                && activeScene.actorsById == old(activeScene.actorsById) - {id}
                && activeScene.events == old(activeScene.events) + [ActorRemoved(id)]
      ensures !removed && old(activeScene) != null ==>
                && activeScene.actors == old(activeScene.actors) && activeScene.actorsById == old(activeScene.actorsById)
                && activeScene.events == old(activeScene.events)
      ensures old(activeScene) != null ==>
                && activeScene.name == old(activeScene.name) && activeScene.nextActorId == old(activeScene.nextActorId)
                && activeScene.dirty == old(activeScene.dirty)
      ensures old(activeScene) != null ==> forall a :: a in old(activeScene.actors) ==> KeepsFields(a)
    {
      if activeScene == null {
        return false;
      }
      var actor := activeScene.FindActorByID(id);
      if actor == null {
        return false;
      }
      activeScene.FoundActorIsStored(id);
      removed := RemoveActor(actor);
    }

    /** Update(deltaTime): the active scene's UpdateActors, if there is one. */
    method Update(deltaTime: real)
      ensures unchanged(this)
      ensures activeScene != null ==> unchanged(activeScene) && unchanged(activeScene.actors)
    {
      if activeScene != null {
        activeScene.UpdateActors(deltaTime);
      }
    }

    /** SaveScene(scene, filename): false for null; true without writing or notifying when the
        scene is not dirty; false when the file cannot be opened. Otherwise the file is opened
        (and truncated), the serialised scene is stamped with meta.last_modified and written,
        OnSceneSaved is told, and the result is true. The scene's own serialisation is not part
        of this model: serialized stands for what JScene::Serialize returns. */
    method SaveScene(scene: Scene?, filename: string, fs: FileStore, serialized: Json, timestamp: string)
      returns (ok: bool, thrown: Option<JsonError>)
      modifies this, fs
      ensures activeScene == old(activeScene)
      ensures scene == null ==> !ok && thrown == None
      ensures scene != null && !scene.dirty ==> ok && thrown == None
      ensures scene == null || !scene.dirty || ScenePath(filename) in fs.unwritable ==>
                fs.files == old(fs.files) && notifications == old(notifications)
      ensures scene != null && scene.dirty && ScenePath(filename) in fs.unwritable ==> !ok && thrown == None
      ensures scene != null && scene.dirty && ScenePath(filename) !in fs.unwritable ==>
                match StampMeta(serialized, timestamp)
                case Ok(j) =>
                  ok && thrown == None && fs.files == old(fs.files)[ScenePath(filename) := Some(j)]
                  && notifications == old(notifications) + [Saved(scene)]
                case Err(e) =>
                  !ok && thrown == Some(e) && fs.files == old(fs.files)[ScenePath(filename) := None]
                  && notifications == old(notifications)
    {
      if scene == null {
        return false, None;
      }
      if !scene.dirty {
        return true, None;
      }
      var path := ScenePath(filename);
      if path in fs.unwritable {
        return false, None;
      }
      fs.files := fs.files[path := None];
      var stamped := StampMeta(serialized, timestamp);
      if stamped.Err? {
        return false, Some(stamped.error);
      }
      fs.files := fs.files[path := Some(stamped.value)];
      notifications := notifications + [Saved(scene)];
      return true, None;
    }

    /** CreateSceneFile(name, filename, overwrite): false, writing nothing, when the file exists
        and overwrite is off; otherwise a fresh scene of that name (dirty, so it is written) is
        saved. serializedEmpty stands for what JScene::Serialize returns for that fresh scene. */
    method CreateSceneFile(name: string, filename: string, overwrite: bool, fs: FileStore,
                           serializedEmpty: Json, timestamp: string)
      returns (ok: bool, thrown: Option<JsonError>)
      modifies this, fs
      ensures activeScene == old(activeScene)
      ensures ScenePath(filename) in old(fs.files) && !overwrite ==>
                !ok && thrown == None && fs.files == old(fs.files) && notifications == old(notifications)
      ensures (ScenePath(filename) !in old(fs.files) || overwrite) && ScenePath(filename) !in fs.unwritable ==>
                match StampMeta(serializedEmpty, timestamp)
                case Ok(j) => ok && thrown == None && fs.files == old(fs.files)[ScenePath(filename) := Some(j)]
                              && |notifications| == |old(notifications)| + 1
                              && notifications[..|old(notifications)|] == old(notifications)
                              && notifications[|notifications| - 1].Saved?
                              && notifications[|notifications| - 1].scene.name == name
                case Err(e) => !ok && thrown == Some(e)
                               && fs.files == old(fs.files)[ScenePath(filename) := None]
                               && notifications == old(notifications)
      ensures ScenePath(filename) in fs.unwritable ==>
                !ok && thrown == None && fs.files == old(fs.files) && notifications == old(notifications)
    {
      if ScenePath(filename) in fs.files && !overwrite {
        return false, None;
      }
      var scene := new Scene(name);
      ok, thrown := SaveScene(scene, filename, fs, serializedEmpty, timestamp);
    }

    /** LoadScene(filename): null, changing nothing, when the file cannot be opened. Otherwise the
        document is parsed, the scene is named from "name" (default "UnnamedScene"),
        OnSceneLoaded is told, and the scene becomes the active one, replacing the previous one.
        JScene::Deserialize is not part of this model, so nothing is promised about the loaded
        scene's actors. */
    method LoadScene(filename: string, fs: FileStore) returns (scene: Scene?, thrown: Option<JsonError>)
      requires Valid()
      modifies this
      ensures Valid()
      ensures ScenePath(filename) !in fs.files ==>
                scene == null && thrown == None && activeScene == old(activeScene) && notifications == old(notifications)
      ensures ScenePath(filename) in fs.files && fs.files[ScenePath(filename)] == None ==>
                scene == null && thrown == Some(ParseError) && activeScene == old(activeScene)
                && notifications == old(notifications)
      ensures ScenePath(filename) in fs.files && fs.files[ScenePath(filename)].Some? ==>
                match ValueOr(fs.files[ScenePath(filename)].value, "name", "UnnamedScene", AsString)
                case Ok(n) =>
                  && thrown == None && scene != null && fresh(scene)
                  && scene.name == n
                  && activeScene == scene && notifications == old(notifications) + [Loaded(scene)]
                case Err(e) =>
                  scene == null && thrown == Some(e) && activeScene == old(activeScene)
                  && notifications == old(notifications)
    {
      var path := ScenePath(filename);
      if path !in fs.files {
        return null, None;
      }
      if fs.files[path] == None {
        return null, Some(ParseError);
      }
      var j := fs.files[path].value;
      var name := ValueOr(j, "name", "UnnamedScene", AsString);
      if name.Err? {
        return null, Some(name.error);
      }
      var s := new Scene(name.value);
      notifications := notifications + [Loaded(s)];
      activeScene := s;
      return s, None;
    }

    /** RenameScene(scene, newName): false, changing nothing, for null, an empty name or the
        current name; otherwise the name is set, OnSceneRenamed is told, and the result is true. */
    method RenameScene(scene: Scene?, newName: string) returns (ok: bool)
      modifies this, scene
      ensures activeScene == old(activeScene)
      ensures ok == (scene != null && newName != "" && old(scene.name) != newName)
      ensures !ok ==> notifications == old(notifications) && (scene != null ==> scene.name == old(scene.name))
      ensures ok ==> scene.name == newName && notifications == old(notifications) + [Renamed(scene, newName)]
      ensures scene != null ==> scene.actors == old(scene.actors) && scene.actorsById == old(scene.actorsById)
      ensures scene != null ==>
                && scene.dirty == old(scene.dirty) && scene.nextActorId == old(scene.nextActorId)
                && scene.events == old(scene.events)
    {
      if scene == null || newName == "" {
        return false;
      }
      if scene.name == newName {
        return false;
      }
      scene.SetName(newName);
      notifications := notifications + [Renamed(scene, newName)];
      return true;
    }
  }
}

=== FILE: services.dfy ===
/** TServiceContainer: the engine's registry of services, one instance per type. A type is
    named by its type key (the std::type_index of T); an instance remembers the type it was
    made as and the arguments its constructor was given. */
module Services {
  /** The std::type_index of a service type. */
  type TypeKey = string

  /** One service object, as std::make_shared<T>(args...) creates it. */
  class Service<A> {
    const typeKey: TypeKey
    const args: A

    constructor (typeKey: TypeKey, args: A)
      ensures this.typeKey == typeKey && this.args == args
    {
      this.typeKey := typeKey;
      this.args := args;
    }
  }

  class ServiceContainer<A> {
    /** m_Services: the instance registered for each type. */
    var services: map<TypeKey, Service<A>>
    /** The type of every instance the container has constructed, in order. */
    ghost var constructed: seq<TypeKey>

    /** Each entry holds an instance of its own type, so the static_cast in GetService is sound. */
    ghost predicate Valid()
      reads this, services.Values
    {
      forall k :: k in services ==> services[k].typeKey == k
    }

    constructor ()
      ensures Valid() && services == map[] && constructed == []
    {
      services := map[];
      constructed := [];
    }

    /** RegisterService<T>(args...): a new T built from the arguments takes the type's entry,
        replacing any instance registered before; the other types keep theirs. */
    method RegisterService(key: TypeKey, args: A)
      requires Valid()
      modifies this
      ensures Valid()
      ensures key in services && fresh(services[key])
      ensures services[key].typeKey == key && services[key].args == args
      ensures forall k :: k != key ==> (k in services <==> k in old(services))
      ensures forall k :: k != key && k in services ==> services[k] == old(services[k])
      ensures constructed == old(constructed) + [key]
    {
      var svc := new Service(key, args);
      services := services[key := svc];
      constructed := constructed + [key];
    }

    /** GetService<T>(): the instance registered for the type, as a T; null when there is none. */
    function GetService(key: TypeKey): (s: Service?<A>)
      requires Valid()
      reads this, services.Values
      ensures s == null <==> key !in services
      ensures s != null ==> s == services[key] && s.typeKey == key
    {
      if key in services then services[key] else null
    }

    /** GetOrCreateService<T>(args...): the registered instance, untouched and without building
        anything; otherwise one new T is registered and returned. */
    method GetOrCreateService(key: TypeKey, args: A) returns (s: Service<A>)
      requires Valid()
      modifies this
      ensures Valid() && s.typeKey == key && key in services && services[key] == s
      ensures key in old(services) ==>
                s == old(services[key]) && services == old(services) && constructed == old(constructed)
      ensures key !in old(services) ==>
                && fresh(s) && s.args == args
                && services == old(services)[key := s]
                && constructed == old(constructed) + [key]
    {
      var svc := GetService(key);
      if svc == null {
        RegisterService(key, args);
        svc := GetService(key);
      }
      s := svc;
    }
  }

  /** Registering a type and then asking for it gives the new instance, built from the
      registration's arguments, and another type's entry is what it was. */
  method RegisterThenGet<A>(c: ServiceContainer<A>, key: TypeKey, other: TypeKey, args: A)
    requires c.Valid() && other != key
    modifies c
    ensures c.Valid()
    ensures c.GetService(key) != null && c.GetService(key).args == args && fresh(c.GetService(key))
    ensures c.GetService(other) == old(c.GetService(other))
  {
    c.RegisterService(key, args);
  }

  /** Asking twice with GetOrCreateService builds at most one instance and returns the same one
      both times, whatever the second call's arguments. */
  method GetOrCreateTwice<A>(c: ServiceContainer<A>, key: TypeKey, first: A, second: A)
    returns (s1: Service<A>, s2: Service<A>)
    requires c.Valid()
    modifies c
    ensures s1 == s2
    ensures |c.constructed| <= |old(c.constructed)| + 1
    ensures key !in old(c.services) ==> s1.args == first
  {
    s1 := c.GetOrCreateService(key, first);
    s2 := c.GetOrCreateService(key, second);
  }
}

=== FILE: text.dfy ===
/** Character and number formatting used by the serialisation and path code:
    std::to_string for non-negative integers, and std::tolower in the "C" locale. */
module Text {

  /** The decimal digit character for 0 <= d < 10. */
  function Digit(d: nat): (c: char)
    requires d < 10
    ensures '0' <= c <= '9'
    ensures c as int - '0' as int == d
  {
    ['0', '1', '2', '3', '4', '5', '6', '7', '8', '9'][d]
  }

  /** std::to_string of a non-negative integer: its decimal digits, no sign, no leading zeros. */
  function NatToString(n: nat): (s: string)
    ensures |s| >= 1
    ensures forall i :: 0 <= i < |s| ==> '0' <= s[i] <= '9'
    ensures n >= 10 ==> |s| >= 2
  {
    if n < 10 then [Digit(n)] else NatToString(n / 10) + [Digit(n % 10)]
  }

  /** Different numbers are written differently, so keys built from them never collide. */
  lemma {:induction false} NatToStringInjective(a: nat, b: nat)
    requires NatToString(a) == NatToString(b)
    ensures a == b
  {
    if a < 10 && b < 10 {
      assert Digit(a) == NatToString(a)[0] == NatToString(b)[0] == Digit(b);
    } else if a >= 10 && b >= 10 {
      var sa, sb := NatToString(a), NatToString(b);
      assert Digit(a % 10) == sa[|sa| - 1] == sb[|sb| - 1] == Digit(b % 10);
      assert NatToString(a / 10) == sa[..|sa| - 1] == sb[..|sb| - 1] == NatToString(b / 10);
      NatToStringInjective(a / 10, b / 10);
    }
  }

  /** std::tolower on one character in the "C" locale: only 'A'..'Z' change. */
  function LowerChar(c: char): (r: char)
    ensures 'A' <= c <= 'Z' ==> 'a' <= r <= 'z' && r as int - c as int == 32
    ensures !('A' <= c <= 'Z') ==> r == c
  {
    if 'A' <= c <= 'Z' then (c as int + 32) as char else c
  }

  /** The lowercased copy of a string, character by character. */
  function ToLower(s: string): (r: string)
    ensures |r| == |s|
    ensures forall i :: 0 <= i < |s| ==> r[i] == LowerChar(s[i])
  {
    if s == [] then [] else [LowerChar(s[0])] + ToLower(s[1..])
  }
}

=== FILE: wrappers.dfy ===
/** The optional value used for "empty" returns (std::optional, a null pointer, a failed cast). */
module Wrappers {

  datatype Option<+T> = None | Some(value: T)
}
